=== FILE: README.md ===
# Telegram auto-filter bot: a Dafny model of its core

The bot indexes the media posted in one or more Telegram channels into a
MongoDB collection. When someone types a title into a group it serves, it
answers with links to the matching media messages. This project models the
core of that bot as pure functions over immutable data and proves properties
of the model:

- **the token normaliser** (`Normalizer`). It lowercases text, keeps the
  maximal runs of word characters and joins them with single spaces. The
  same function builds a record's `search_tags` and cleans a query.
- **the database** (`MediaStore`). Media records are keyed by
  `(channel_id, message_id)`; there are also per-channel checkpoints and
  users with a ban flag. Each operation is a function from the store before
  to the store after.
- **the search** (`Search`). It cleans the query and returns nothing for an
  empty cleaned query. Otherwise it returns the best `max_results` matches,
  ordered by relevance and then by newest message. Which records the text
  index matches, and their score, are parameters.
- **the channel scan and `/index`, `/clearindex`** (`Indexing`). The scan is
  a fold over what the history iterator delivers. Each delivered message
  carries the outcome of its database write and of its progress edit. A
  FloodWait or any other exception ends the fold.
- **result links** (`Links`): `get_media_link`.
- **access control** (`Access`): force-subscribe, the group search gate,
  and `/ban` and `/unban`.
- **configuration** (`Config`): the `INDEX_CHANNELS` parser, `int()` on the
  numeric settings, and the essential-settings check.

Supporting modules:

- `Wrappers`: `Option` and `Result`.
- `Text`: ASCII character classes, lowercasing, maximal runs, join, strip and
  replace.
- `Numerals`: decimal rendering and parsing, including Python's `int()` on
  strings.
- `Chat`: the transport's values (chat references, media kinds, messages,
  member statuses).

The things the bot asks of the outside world become parameters of the
operations that use them:

- the clock becomes `now`;
- `get_chat` becomes `resolve` or a `ChatLookup`/`ChannelFetch` value; in `index_channel`, `resolve` also covers the status edit inside the same `try` (main.py:491), so `resolve(target)` is `None` when either `get_chat` or that edit raises, and the channel is reported as not accessible (main.py:492-495);
- the history iterator becomes `history`;
- the membership lookup becomes a `MemberLookup` value;
- the success of sending a reply becomes a boolean.

## Model

| member | source | states |
|---|---|---|
| Text.Lower | database.py:63 | lowercasing maps each letter A-Z to its lower-case letter (code point plus 32), leaves every other character alone, and never changes whether a character is a word character |
| Text.LowerIgnoresCase | database.py:63 | two characters lower to the same character exactly when they are equal or the same letter in two cases |
| Text.LowerStr | database.py:63 | `text.lower()` keeps the length and lowercases position by position |
| Text.LowerStrConcat | database.py:62-63 | lowering a concatenation is the concatenation of the lowered parts |
| Text.RunLength | database.py:63 | the length of the leading run is maximal: every character inside satisfies the class, the next one does not |
| Text.Runs | database.py:63 | `re.findall(r'\w+')` and `str.split()` yield only non-empty tokens made entirely of the class |
| Text.RunsEmpty | database.py:85-87 | there are no tokens exactly when no character belongs to the class |
| Text.RunsOfJoin | config.py:32 | splitting a separator-joined list of valid tokens gives back exactly that list |
| Text.JoinOfRuns | database.py:63 | joining the tokens of a separated string rebuilds the string |
| Text.JoinSeparated | database.py:63 | joining valid tokens gives a separated string, empty exactly when there are no tokens |
| Text.RunsSplitAt | database.py:62-63 | a non-word character between two strings splits their tokens exactly: the tokens of `a + c + b` are those of `a` followed by those of `b` |
| Text.RunsAll | database.py:63 | every token of a string inherits a property that all of its characters have |
| Text.JoinAll | database.py:63 | a join has a property when the tokens and the separator all have it |
| Text.RunLengthOfPrefix | database.py:63 | a run ends exactly where the class stops holding |
| Text.RunsOfToken | database.py:63 | a single valid token splits into itself |
| Text.LeadingSpace | main.py:689 | leading whitespace is counted maximally |
| Text.TrailingSpace | main.py:689 | trailing whitespace is counted maximally |
| Text.Strip | main.py:689-690 | `str.strip()` is a contiguous slice with no whitespace at either end, empty exactly when the text is all whitespace |
| Text.ReplaceAbsent | main.py:79 | `replace` changes nothing when the pattern's first character does not occur |
| Text.ReplaceLeadingOnly | main.py:64-65 | removing a pattern that occurs only at the front leaves the rest |
| Numerals.NatToString | main.py:65 | `str()` of a natural number is digits without a leading zero |
| Numerals.ParseNatToString | main.py:413 | `int()` inverts `str()` on natural numbers |
| Numerals.NatToStringOfParse | main.py:413 | `str(int(s))` gives `s` back for a digit string without a leading zero |
| Numerals.IntToStringInjective | main.py:65 | distinct integers print differently |
| Numerals.ParseDigitsPositive | main.py:413 | a digit string with a non-zero first digit has a positive value |
| Numerals.DigitValue | main.py:413 | a digit's value is below ten and renders back to the same digit |
| Numerals.RemoveUnderscores | config.py:9 | dropping the `_` separators `int()` allows leaves only digits, at least one when there was one |
| Numerals.ParsePyInt | config.py:9 | `int()` on a string succeeds exactly on an optionally signed run of digits grouped by single underscores, and the sign decides the sign of the value |
| Numerals.ParsePyIntOfDigits | config.py:32 | `int()` of a plain digit string is its decimal value |
| Numerals.DigitStringIsGrouped | config.py:32 | a plain digit string is a valid `int()` literal with the same value |
| Numerals.ParsePyIntOfIntToString | config.py:32 | `int(str(n)) == n` for every integer, negative ones included |
| Normalizer.Tokens | database.py:63 | the tokens are non-empty runs of lowercase word characters |
| Normalizer.Normalize | database.py:85 | the cleaned text is lowercase word runs separated by single spaces, empty exactly when the text has no word character |
| Normalizer.NormalizeKeepsTokens | database.py:63 | splitting cleaned text on its spaces recovers exactly the tokens of the original |
| Normalizer.NormalizeFixesNormalized | database.py:85 | text already in normal form is left unchanged |
| Normalizer.NormalizeIdempotent | database.py:85 | cleaning a cleaned query changes nothing |
| Normalizer.NormalizeIgnoresCase | database.py:85 | a query and a tag text that differ only in letter case clean to the same string |
| Normalizer.SearchTags | database.py:62-63 | stored `search_tags` are always in normal form |
| Normalizer.SearchTagsTokens | database.py:62-63 | the tags' tokens are the file name's tokens followed by the caption's, with none merged across the two |
| Normalizer.MatrixFileName | database.py:63 | `_` is a word character: "The.Matrix_1999.mkv" has the tokens the, matrix_1999, mkv |
| Normalizer.MatrixQuery | database.py:85 | the query "MATRIX 1999" has a token "1999" that the file name above lacks |
| MediaStore.AddMedia | database.py:60-81 | the upsert adds or replaces exactly the record at (channel_id, message_id), with the given fields, derived tags and timestamp |
| MediaStore.AddMediaConsistent | database.py:60-81 | an upsert keeps the store consistent: every record is filed under its own key and carries the tags derived from its file name and caption |
| MediaStore.AddMediaOverwrites | database.py:77-81 | upserting the same key twice, with any fields and timestamps, leaves exactly what the second upsert alone would have written |
| MediaStore.AddMediaIdempotent | database.py:77-81 | re-indexing a message changes nothing but its timestamp |
| MediaStore.AddMediaLatestWins | database.py:77-81 | re-indexing with new fields keeps one record for the key, holding the latest fields |
| MediaStore.KeptMediaCount | database.py:121-124 | the records kept after removing a channel plus those removed add up to the whole collection |
| MediaStore.DeleteMediaByChannel | database.py:121-124 | exactly the channel's records and its checkpoint are removed, and the returned count is the number of records removed |
| MediaStore.DeleteMediaByChannelTwice | database.py:121-124 | deleting a channel's records a second time removes nothing and changes nothing |
| MediaStore.SetLastIndexedMessageId | database.py:114-119 | setting a checkpoint adds that channel's key and touches nothing else |
| MediaStore.CheckpointRoundTrip | database.py:110-119 | a checkpoint reads back the last value set, other channels keep theirs, and an unset or deleted checkpoint reads 0 |
| MediaStore.AddUser | database.py:25-33 | `add_user` overwrites every field of the user, including `banned := False`, and leaves other users alone |
| MediaStore.SetBanStatus | database.py:42-45 | sets the ban flag of a known user, or creates an unknown user with that flag and a join date; others are untouched |
| MediaStore.BanStatusRoundTrip | database.py:38-45 | `is_user_banned` reports the last status set, is false for unknown users, and is cleared by `add_user` |
| MediaStore.UsersStayDated | database.py:25-45 | with the corrected `set_ban_status`, every known user keeps a join date |
| MediaStore.SetBanStatusAsWritten | database.py:42-45 | the two upserts as written set the flag and create the user |
| MediaStore.SetBanStatusVersionsAgree | database.py:42-45 | the two versions of `set_ban_status` differ only in the join date of a user unknown until now, so `is_user_banned` answers the same after either |
| MediaStore.SetBanStatusAsWrittenLeavesNoJoinDate | database.py:42-45 | as written, a user unknown until now gets no join date |
| Search.Insert | database.py:91 | inserting into the ranked list is a permutation of the list plus the new record |
| Search.InsertRanked | database.py:91 | inserting into a ranked list keeps it ranked by score, then newest message |
| Search.Sort | database.py:91 | the ordering is a permutation of the matches |
| Search.InsertDistinct | database.py:91 | inserting a record not yet in a list without repeats leaves a list without repeats |
| Search.SortDistinct | database.py:91 | ordering a list without repeats leaves it without repeats |
| Search.SortRanked | database.py:91 | the ordering is ranked by score descending, then message id descending |
| Search.CollectMatches | database.py:91 | collects exactly the stored records the text index matches, each once when every record sits under its own key |
| Search.SearchMedia | database.py:83-105 | nothing for an empty cleaned query; otherwise at most `max_results` matching stored records, ranked, no record twice in a consistent store, and a matching record is left out only when the limit is filled by records ranking at least as high |
| Search.EmptyQueries | database.py:85-87 | queries without a word character clean to "" |
| Indexing.SynthesizedName | main.py:510-525 | a synthesized file name is never empty |
| Indexing.StoredCaption | main.py:550 | a missing or empty caption is stored as None, any other caption as is |
| Indexing.Extract | main.py:503-533 | a message is stored exactly when it carries a video, document or audio; the file's own name is kept when non-empty, otherwise one is synthesized from the message id; the id and size are copied; an empty or missing caption is stored as none; the file type is the media kind |
| Indexing.MessageCounts | main.py:503-572 | the exact counter rule, one case per branch: a message that is not stored adds one to skipped; a failed write adds one to failed; a successful write adds one to processed, and one more to failed when the new total is a multiple of 100 and the progress edit fails |
| Indexing.MessageCountsTotal | main.py:544-572 | each message adds one to the counters' total, and a second one only when it is written and its progress edit fails |
| Indexing.WriteMessage | main.py:544-556 | only an indexable message whose write succeeds changes the store, by upserting its extracted fields under its key |
| Indexing.ScanCounts | main.py:502-572 | the counters never decrease over a scan |
| Indexing.ScanHistory | main.py:502-584 | the scan only writes records of its channel, under keys of its channel, keeps the store consistent, and its counts and ending depend on the history alone, not on the store |
| Indexing.DeliveredBeforeStop | main.py:502-572 | the messages scanned are exactly the items before the first exception the iteration raises |
| Indexing.ScanStoresWrites | main.py:544-556 | every message written before the iteration stops is in the store under (channel, message id) with its extracted fields, unless a later message writes the same key: the last write wins |
| Indexing.ScanKeepsUnwritten | main.py:502-572 | a key that no write before the stop touches keeps its value: absent stays absent, and a present record is unchanged |
| Indexing.ScanAccounting | main.py:502-572 | the counters grow by between one and two per delivered message, and with working edits the total is the number of messages iterated |
| Indexing.DeliveredOnlyExhausts | main.py:502 | a history without raised exceptions runs to exhaustion |
| Indexing.RaiseEndsScan | main.py:574-584 | a FloodWait or other exception ends the scan with what came before it, and nothing after it is looked at |
| Indexing.IndexChannel | main.py:476-597 | an unresolvable target reports access failure and writes nothing; otherwise the outcome is the summary after exhaustion or FloodWait and an error after any other exception, and only the channel's own records are written |
| Indexing.IndexChannelStoresWrites | main.py:476-597 | after `index_channel`, each message of the channel written before the iteration stops is in the store under its key with its extracted fields, unless a later message writes the same key |
| Indexing.IndexChannelKeepsUnwritten | main.py:476-597 | `index_channel` leaves every key that none of its writes touches as it was |
| Indexing.FloodWaitStillSummarizes | main.py:574-597 | after a FloodWait the summary is still reported, with the counts of the messages before it, and the scan does not resume |
| Indexing.SkipAccountingExample | main.py:503-533 | text, video, photo, document counts as two processed and two skipped |
| Indexing.WorkingScanCounts | main.py:502-572 | when every write and edit succeeds, the stored messages are all counted processed, the others skipped, and none failed |
| Indexing.ScanCountsCons | main.py:502 | a delivered message in front of the history adds its own count and nothing else |
| Indexing.FailedEditCountsTwice | main.py:544-572 | any stored message whose write succeeds, when the new total is a multiple of 100 and the progress edit fails, counts once as processed and once as failed |
| Indexing.IndexTargets | main.py:602-621 | an argument starting with `@` or `-` stays a string, an all-digit one becomes an integer, anything else is refused; without one the configured list is used, and an empty list is refused |
| Indexing.IndexAll | main.py:626-628 | every target is indexed in order; a target that cannot be resolved or whose scan raises reports so and the loop goes on; each target's outcome depends only on its own lookup and history; every record the loop adds or changes lies under a key of a channel some target resolves to, and checkpoints and users are untouched |
| Indexing.IndexAllStoresWrites | main.py:626-628 | after the loop, each message a target's scan writes before its iteration stops is in the store with its extracted fields, unless a later write of that scan or a later target for the same channel can replace it |
| Indexing.IndexAllKeepsUnwritten | main.py:626-628 | after the loop, a key no target's scan writes to is as it was |
| Indexing.IndexCommand | main.py:601-630 | `/index` succeeds exactly when the target list resolves, and reports one outcome per target, each the one its own lookup and history determine; it writes only records of the channels its targets resolve to |
| Indexing.IndexCommandStoresWrites | main.py:601-630 | after `/index`, each message a target's scan writes before its iteration stops is stored with its extracted fields, unless a later write of that scan or a later target for the same channel can replace it |
| Indexing.IndexCommandKeepsUnwritten | main.py:601-630 | after `/index`, a key no target's scan writes to is as it was |
| Indexing.ClearTarget | main.py:657 | an all-digit target is looked up as an integer, anything else as the string itself |
| Indexing.ClearIndexCommand | main.py:632-666 | usage exactly without an argument; `all` in any case only asks for confirmation; a target that cannot be resolved is reported; otherwise exactly the resolved channel's records and checkpoint are removed, the count removed is returned, and other records, checkpoints and users are kept |
| Indexing.ClearIndexTwice | main.py:655-666 | clearing the same channel again removes nothing and reports zero |
| Links.Shown | main.py:72 | a present value prints as itself |
| Links.MediaLink | main.py:61-88 | the link is a type error exactly for a string channel without `@`, and otherwise starts with `https://t.me/` |
| Links.PrivateChannelPath | main.py:64-65 | the path of a `-100<digits>` channel is `c/<digits>`: only the leading `-100` is removed |
| Links.PrivateChannelLink | main.py:64-65 | a `-100<digits>` channel links to `c/<digits>/<message id>` |
| Links.NonNegativeIdPath | main.py:83-85 | the path of a non-negative id is `c/` followed by its decimal form |
| Links.NonNegativeIdLink | main.py:83-85 | a non-negative numeric id links to `c/<id>/<message id>` |
| Links.NegativeIdLink | main.py:83-85 | a negative id that is not a `-100` id links like its absolute value, through `c/<abs(id)>` |
| Links.HandleLink | main.py:66-79 | an `@handle` links through the username the lookup returns, or through the handle without `@` when the lookup fails |
| Links.PrivateChannelExample | main.py:64-65 | channel -100123 and message 42 give `https://t.me/c/123/42` |
| Links.LinksDistinguishMessages | main.py:61-88 | two messages of one channel never share a link |
| Access.JoinLinkAsWritten | main.py:150 | as written, a channel without a username always links to "#" |
| Access.JoinLink | main.py:150 | corrected: the invite link when there is one, else the username link, else "#" |
| Access.JoinLinkAgreesWithUsername | main.py:150 | both readings agree whenever the channel has a username |
| Access.JoinLinkAsWrittenDropsInviteLink | main.py:150 | as written, a channel with an invite link but no username links to "#" instead of the invite link |
| Access.ForceSub | main.py:106-164 | as written: the user is refused exactly when a channel is configured, the user is not the owner, the lookup says not joined, and the prompt was built and sent; the prompt carries the join link as main.py:150 computes it |
| Access.ForceSubCorrected | main.py:106-164 | the same verdict, with the corrected join link |
| Access.ForceSubVersions | main.py:150 | both versions refuse the same users; their prompts agree when the channel has a username; with only an invite link the prompt as written links to "#" and the corrected one to the invite link |
| Access.ForceSubFailsOpen | main.py:110-164 | with no channel, for the owner, for a joined status, on any lookup error or a failed prompt, the user is allowed, in both versions |
| Access.GroupFilter | main.py:671-691 | banned users are ignored exactly, force-subscribe refusals change nothing, and otherwise the user is recorded and the stripped text is searched when it has at least 3 characters |
| Access.GroupFilterKeepsBans | main.py:676-686 | a group message never lifts a ban, because the ban check precedes `add_user` |
| Access.ShortQueryIgnored | main.py:689-691 | surrounding whitespace does not count toward the length: "  ab  " is ignored |
| Access.BanReason | main.py:414 | without words after the id, the reason is "No reason specified."; otherwise it is those words joined by single spaces |
| Access.BanReasonWords | main.py:414 | splitting the reason on whitespace gives back the words after the id |
| Access.BanCommand | main.py:407-425 | a ban happens exactly for an all-digit id that is neither the owner nor the bot, with the reason the remaining words give; bad arguments print usage; the owner's id is refused as the owner, and the bot's (when not the owner's) as the bot itself; only the target's ban flag can change and the owner's never does |
| Access.UnbanCommand | main.py:433-442 | an all-digit id is unbanned, anything else prints usage and changes nothing; other users are untouched |
| Access.BanThenUnban | main.py:407-442 | `/ban 42 spam links` bans 42 with reason "spam links", and `/unban 42` lifts it |
| Config.SplitWhitespace | config.py:32 | `str.split()` yields non-empty whitespace-free tokens, none exactly when the value is all whitespace |
| Config.ConvertTokens | config.py:32 | the comprehension keeps one entry per token |
| Config.AsNames | config.py:35 | the fallback keeps one string per token |
| Config.ParseIndexChannels | config.py:30-38 | one entry per token in order; `-` tokens become their integers and the rest stay strings, unless some `-` token is not an integer, in which case all stay strings |
| Config.ParseJoinedTokens | config.py:30-35 | a space-joined list of tokens parses back to one entry per token |
| Config.IndexChannelsMixed | config.py:32 | a negative id, an `@handle` and a bare digit string parse to an integer, a string and a string |
| Config.IndexChannelsFallbackExample | config.py:33-35 | "-abc @movies" falls back to two strings |
| Config.AllTruthy | config.py:57 | `all()` is true exactly when every value is truthy |
| Config.EssentialsPresentExactly | config.py:57-58 | startup is refused exactly when one of the five essential settings is zero or empty |
| Config.LoadConfig | config.py:9-60 | a non-integer `API_ID`, then `OWNER_ID`, stops loading; once both parse, the configuration is accepted exactly when its essentials are present and refused as missing otherwise; a loaded configuration holds the parsed integers, its string settings as given, and `INDEX_CHANNELS` parsed as above; an empty channel list only warns |
| Config.LoadConfigRoundTrip | config.py:9-58 | a configuration written into the environment loads back unchanged when its essentials are present, and is refused otherwise |
| Config.EmptyEnvironmentRefused | config.py:9-58 | with nothing set, startup is refused |

## Left out

- Characters are ASCII. `\w`, `str.lower()`, `str.isdigit()`, `str.split()` and `str.strip()` are modelled on ASCII only. Non-ASCII letters and digits, which Python treats as word characters, are not word characters here. Non-ASCII whitespace such as U+00A0 and U+3000, which `split()` and `strip()` remove, is not whitespace here.
- Numerals.ParsePyInt: `int()` also accepts surrounding whitespace and a leading `+`; neither is modelled. Python also refuses strings of more than 4300 digits (a `ValueError`); the model has no such limit.
- Search.SearchMedia: requires `max_results > 0`; MongoDB's meaning of a zero or negative limit is not modelled. The text index's match and relevance score are parameters, not a model of MongoDB's text search.
- Captions are stored as their HTML rendering (`caption.html`); the model stores the caption text.
- Timestamps (`datetime.utcnow()`) are a parameter `now`, one value per operation or per scan.
- `get_readable_size`, `/start`, `/help`, `/status`, `/broadcast`, `/banned`, the callback handler and the result message formatting are not modelled; they format text or send messages.
- `/clearindex all` is modelled only up to the confirmation reply; the interactive confirmation and the deletion of everything are not.
- Sleeps, progress and status messages, and `log_message` are not modelled; only the effect of a failed progress edit on the counters is.
- Indexing.IndexAll: the status message `index_channel` sends first (main.py:478), the "Could not access" edit (main.py:493) and its edits after a FloodWait, after an error and with the summary (main.py:575-597) sit outside any handler; the model assumes they succeed. If one raised, `index_channel` would stop there and so would the loop over the remaining targets.
- Access.BanCommand: uses the corrected `set_ban_status` (see Findings). As written, a user first created by `/ban` or `/unban` gets no join date. The ban flags are the same in both versions (MediaStore.SetBanStatusVersionsAgree), so every ensures of Access.BanCommand and Access.UnbanCommand holds for the code as written too.
- The scan's commented-out checkpoint handling is not modelled; the scan always starts from the beginning, as the code does.
- `message.from_user` being absent (anonymous senders) is not modelled; the user id is a parameter.
- `LOG_CHANNEL`, `MAX_RESULTS`, `CACHE_TIME` and `SLEEP_TIME_BCAST` go through `int()` too; only `API_ID` and `OWNER_ID` are modelled.
- The `except Exception` branch of `INDEX_CHANNELS` (config.py:36-38) cannot be reached in the model: the only exception the comprehension can raise there is the `ValueError` handled above it.
- Indexing.ScanCounts: the ensures states only that the counters never decrease; the exact accounting is stated by Indexing.ScanAccounting and Indexing.MessageCounts.

## Findings

| source | as written | input that shows it | evidently intended | confidence | as-written member | corrected member |
|---|---|---|---|---|---|---|
| main.py:150 | `channel.invite_link or f"https://t.me/{channel.username}" if channel.username else "#"` parses as `(invite_link or …) if username else "#"` | an updates channel with an invite link and no username: the join button links to "#" | the invite link, else the username link, else "#" | high, not executed | Access.JoinLinkAsWritten, Access.JoinLinkAsWrittenDropsInviteLink, Access.ForceSub | Access.JoinLink, Access.ForceSubCorrected |
| database.py:42-45 | the `$setOnInsert` upsert of `join_date` runs after the `$set` upsert has already inserted the user, so it never inserts and never writes | `/ban 42` for a user 42 the bot has never seen: the user is stored without a `join_date` | a user first created by `set_ban_status` gets a `join_date` | high, not executed | MediaStore.SetBanStatusAsWritten, MediaStore.SetBanStatusAsWrittenLeavesNoJoinDate | MediaStore.SetBanStatus |

=== FILE: Access.dfy ===
/**
 * Who may use the bot (main.py): the force-subscribe check, the gate in
 * front of a group search, and the owner's `/ban` and `/unban` commands.
 */
module Access {
  import opened Wrappers
  import opened Text
  import opened Numerals
  import opened Chat
  import opened MediaStore

  // ---------------------------------------------------------------------------
  // Force subscribe
  // ---------------------------------------------------------------------------

  /** What `get_chat_member(UPDATES_CHANNEL, user)` answers, or the exception it raises. */
  datatype MemberLookup =
    | Status(status: MemberStatus)
    | NotParticipant
    | PeerInvalid
    | ChannelPrivate
    | RpcError
    | OtherError

  /** The updates channel as `get_chat` returns it. */
  datatype ChannelInfo = ChannelInfo(inviteLink: Option<string>, username: Option<string>, title: string)

  /** `get_chat(UPDATES_CHANNEL)` while building the join prompt. */
  datatype ChannelFetch = FetchFailed | Fetched(info: ChannelInfo)

  datatype ForceSubResult = Allowed | Prompted(link: string)

  /** Python truthiness of an optional string: present and non-empty. */
  predicate Truthy(v: Option<string>) {
    v.Some? && |v.value| > 0
  }

  /** The statuses that count as having joined; a restricted member counts as joined. */
  predicate IsJoined(status: MemberStatus) {
    status == Owner || status == Administrator || status == Member || status == Restricted
  }

  /** The lookups after which the user has to be asked to join: not in the channel, left or kicked. */
  predicate MustJoin(lookup: MemberLookup) {
    lookup.NotParticipant? || (lookup.Status? && !IsJoined(lookup.status))
  }

  /**
   * The join link as written at main.py:150: the conditional expression binds
   * more loosely than `or`, so the whole `invite_link or ...` is guarded by
   * the username, and a channel without a username gets "#" even when it has
   * an invite link.
   */
  function JoinLinkAsWritten(c: ChannelInfo): (r: string)
    ensures !Truthy(c.username) ==> r == "#"
  {
    if Truthy(c.username) then
      (if Truthy(c.inviteLink) then c.inviteLink.value else "https://t.me/" + c.username.value)
    else "#"
  }

  /** The join link as evidently intended: the invite link, else the public username link, else "#". */
  function JoinLink(c: ChannelInfo): (r: string)
    ensures Truthy(c.inviteLink) ==> r == c.inviteLink.value
    ensures r == "#" <==> (!Truthy(c.inviteLink) && !Truthy(c.username)) || c.inviteLink == Some("#")
  {
    if Truthy(c.inviteLink) then c.inviteLink.value
    else if Truthy(c.username) then "https://t.me/" + c.username.value
    else "#"
  }

  /** The two readings agree on every channel that has a username. */
  lemma JoinLinkAgreesWithUsername(c: ChannelInfo)
    requires Truthy(c.username)
    ensures JoinLinkAsWritten(c) == JoinLink(c)
  {
  }

  /** A private channel with an invite link but no username: as written the prompt links to "#". */
  lemma JoinLinkAsWrittenDropsInviteLink(link: string, title: string)
    requires |link| > 0
    ensures JoinLinkAsWritten(ChannelInfo(Some(link), None, title)) == "#"
    ensures JoinLink(ChannelInfo(Some(link), None, title)) == link
  {
  }

  /**
   * `check_force_sub` as written. `updatesChannel` is the `UPDATES_CHANNEL`
   * setting (None when unset; an empty value counts as unset too), `lookup`
   * the membership answer, `fetch` the channel lookup for the prompt and
   * `replySent` whether formatting and sending the prompt succeeded. Only a
   * sent prompt refuses the user; every error lets them through. The prompt's
   * button carries the link main.py:150 computes.
   */
  function ForceSub(updatesChannel: Option<string>, userId: int, ownerId: int, lookup: MemberLookup,
                    fetch: ChannelFetch, replySent: bool): (r: ForceSubResult)
    ensures r.Prompted? <==>
              Truthy(updatesChannel) && userId != ownerId && MustJoin(lookup) && fetch.Fetched? && replySent
    ensures r.Prompted? ==> r.link == JoinLinkAsWritten(fetch.info)
  {
    if !Truthy(updatesChannel) then Allowed
    else if userId == ownerId then Allowed
    else if !MustJoin(lookup) then Allowed
    else
      match fetch
      case FetchFailed => Allowed
      case Fetched(info) => if replySent then Prompted(JoinLinkAsWritten(info)) else Allowed
  }

  /** `check_force_sub` with the join link corrected: the same verdict, with the intended link. */
  function ForceSubCorrected(updatesChannel: Option<string>, userId: int, ownerId: int, lookup: MemberLookup,
                             fetch: ChannelFetch, replySent: bool): (r: ForceSubResult)
    ensures r.Prompted? <==>
              Truthy(updatesChannel) && userId != ownerId && MustJoin(lookup) && fetch.Fetched? && replySent
    ensures r.Prompted? ==> r.link == JoinLink(fetch.info)
  {
    match ForceSub(updatesChannel, userId, ownerId, lookup, fetch, replySent)
    case Allowed => Allowed
    case Prompted(_) => Prompted(JoinLink(fetch.info))
  }

  /**
   * The two versions refuse the same users. Their prompts agree whenever the
   * channel has a username; for a channel with only an invite link, the
   * prompt as written links to "#" and the corrected one to the invite link.
   */
  lemma ForceSubVersions(updatesChannel: Option<string>, userId: int, ownerId: int, lookup: MemberLookup,
                         fetch: ChannelFetch, replySent: bool)
    ensures ForceSub(updatesChannel, userId, ownerId, lookup, fetch, replySent).Prompted?
            == ForceSubCorrected(updatesChannel, userId, ownerId, lookup, fetch, replySent).Prompted?
    ensures fetch.Fetched? && Truthy(fetch.info.username) ==>
              ForceSub(updatesChannel, userId, ownerId, lookup, fetch, replySent)
              == ForceSubCorrected(updatesChannel, userId, ownerId, lookup, fetch, replySent)
    ensures ForceSub(updatesChannel, userId, ownerId, lookup, fetch, replySent).Prompted?
            && Truthy(fetch.info.inviteLink) && !Truthy(fetch.info.username) ==>
              && ForceSub(updatesChannel, userId, ownerId, lookup, fetch, replySent) == Prompted("#")
              && ForceSubCorrected(updatesChannel, userId, ownerId, lookup, fetch, replySent)
                 == Prompted(fetch.info.inviteLink.value)
  {
    if fetch.Fetched? && Truthy(fetch.info.username) {
      JoinLinkAgreesWithUsername(fetch.info);
    }
  }

  /**
   * The check fails open: without a channel (or with an empty one), for the owner, for a joined
   * status and on any lookup error the user is allowed, in both versions.
   */
  lemma ForceSubFailsOpen(updatesChannel: Option<string>, userId: int, ownerId: int, lookup: MemberLookup,
                          fetch: ChannelFetch, replySent: bool)
    requires || !Truthy(updatesChannel)
             || userId == ownerId
             || (lookup.Status? && IsJoined(lookup.status))
             || lookup.PeerInvalid? || lookup.ChannelPrivate? || lookup.RpcError? || lookup.OtherError?
             || fetch.FetchFailed?
             || !replySent
    ensures ForceSub(updatesChannel, userId, ownerId, lookup, fetch, replySent) == Allowed
    ensures ForceSubCorrected(updatesChannel, userId, ownerId, lookup, fetch, replySent) == Allowed
  {
  }

  // ---------------------------------------------------------------------------
  // Group search gate
  // ---------------------------------------------------------------------------

  /** The shortest stripped group message that is searched. */
  const MinQueryLength: nat := 3

  datatype GroupReply = IgnoredBanned | BlockedByForceSub | IgnoredShort | Searched(query: string)

  /**
   * The prefix of `group_filter_handler` before the search: a banned user is
   * ignored, then the force-subscribe verdict `forceSub` is applied, then the
   * user is recorded and the stripped text is searched when it has at least
   * `MinQueryLength` characters.
   */
  function GroupFilter(s: Store, userId: int, firstName: string, username: Option<string>, text: string,
                       forceSub: ForceSubResult, now: int): (r: (Store, GroupReply))
    ensures IsUserBanned(s, userId) <==> r.1.IgnoredBanned?
    ensures r.1.IgnoredBanned? || r.1.BlockedByForceSub? ==> r.0 == s
    ensures r.1.IgnoredShort? || r.1.Searched? ==> r.0 == AddUser(s, userId, firstName, username, now)
    ensures r.1.Searched? ==> |r.1.query| >= MinQueryLength && r.1.query == Strip(text)
    ensures r.1.IgnoredShort? ==> |Strip(text)| < MinQueryLength
    ensures r.1.BlockedByForceSub? <==> !IsUserBanned(s, userId) && forceSub.Prompted?
  {
    if IsUserBanned(s, userId) then (s, IgnoredBanned)
    else if forceSub.Prompted? then (s, BlockedByForceSub)
    else
      var s' := AddUser(s, userId, firstName, username, now);
      var q := Strip(text);
      if |q| < MinQueryLength then (s', IgnoredShort) else (s', Searched(q))
  }

  /**
   * A group message never lifts a ban: the banned check comes before the
   * user is recorded, so every banned user is still banned afterwards.
   */
  lemma GroupFilterKeepsBans(s: Store, userId: int, firstName: string, username: Option<string>, text: string,
                             forceSub: ForceSubResult, now: int, v: int)
    requires IsUserBanned(s, v)
    ensures IsUserBanned(GroupFilter(s, userId, firstName, username, text, forceSub, now).0, v)
  {
    if !IsUserBanned(s, userId) && !forceSub.Prompted? {
      BanStatusRoundTrip(s, userId, true, now, v, firstName, username);
    }
  }

  /** Whitespace around a query does not count toward its length; "  ab  " is too short. */
  lemma ShortQueryIgnored(s: Store, userId: int, text: string, now: int)
    requires text == "  ab  "
    requires !IsUserBanned(s, userId)
    ensures GroupFilter(s, userId, "", None, text, Allowed, now).1 == IgnoredShort
  {
    var r := Strip(text);
    var lead := LeadingSpace(text);
    assert IsSpace(text[0]) && IsSpace(text[1]) && !IsSpace(text[2]);
    assert IsSpace(text[4]) && IsSpace(text[5]);
    assert lead == 2;
    assert |r| > 0 ==> r[|r| - 1] == text[lead + |r| - 1];
  }

  // ---------------------------------------------------------------------------
  // Owner commands
  // ---------------------------------------------------------------------------

  datatype BanReply = BanUsage | CannotBanOwner | CannotBanSelf | Banned(userId: int, reason: string)

  const NoReason: string := "No reason specified."

  /** The reason of `/ban`: the words after the user id joined by spaces, or a default. */
  function BanReason(command: seq<string>): (r: string)
    ensures |command| <= 2 ==> r == NoReason
    ensures |command| > 2 ==> r == Join(command[2..], ' ')
  {
    if |command| > 2 then Join(command[2..], ' ') else NoReason
  }

  /** The reason keeps the words after the id: splitting it on whitespace gives them back. */
  lemma BanReasonWords(command: seq<string>)
    requires |command| > 2 && ValidTokens(command[2..], IsNotSpace)
    ensures Runs(BanReason(command), IsNotSpace) == command[2..]
  {
    RunsOfJoin(command[2..], ' ', IsNotSpace);
  }

  /**
   * `/ban <user_id> [reason]` (`command` is the command's words, the command
   * name first): the id must be all digits, and neither the owner nor the bot
   * itself can be banned.
   */
  function BanCommand(s: Store, command: seq<string>, ownerId: int, botId: int, now: int): (r: (Store, BanReply))
    ensures r.1.Banned? <==>
              |command| >= 2 && IsDigitString(command[1])
              && ParseDigits(command[1]) != ownerId && ParseDigits(command[1]) != botId
    ensures r.1.BanUsage? <==> |command| < 2 || !IsDigitString(command[1])
    ensures r.1.Banned? ==> r.1.userId == ParseDigits(command[1]) && IsUserBanned(r.0, r.1.userId)
    ensures r.1.Banned? ==> r.1.reason == BanReason(command)
    ensures |command| >= 2 && IsDigitString(command[1]) && ParseDigits(command[1]) == ownerId ==>
              r.1 == CannotBanOwner
    ensures (&& |command| >= 2 && IsDigitString(command[1])
             && ParseDigits(command[1]) != ownerId && ParseDigits(command[1]) == botId) ==>
              r.1 == CannotBanSelf
    ensures !r.1.Banned? ==> r.0 == s
    ensures forall v :: v != ParseDigitsOr(command) ==> IsUserBanned(r.0, v) == IsUserBanned(s, v)
    ensures IsUserBanned(r.0, ownerId) == IsUserBanned(s, ownerId)
  {
    if |command| < 2 || !IsDigitString(command[1]) then (s, BanUsage)
    else
      var target := ParseDigits(command[1]);
      if target == ownerId then (s, CannotBanOwner)
      else if target == botId then (s, CannotBanSelf)
      else (SetBanStatus(s, target, true, now), Banned(target, BanReason(command)))
  }

  /** The user id a command names, or -1 (no user id is negative) when it names none. */
  function ParseDigitsOr(command: seq<string>): int {
    if |command| >= 2 && IsDigitString(command[1]) then ParseDigits(command[1]) else -1
  }

  datatype UnbanReply = UnbanUsage | Unbanned(userId: int)

  /** `/unban <user_id>`: the id must be all digits. */
  function UnbanCommand(s: Store, command: seq<string>, now: int): (r: (Store, UnbanReply))
    ensures r.1.UnbanUsage? <==> |command| < 2 || !IsDigitString(command[1])
    ensures r.1.Unbanned? ==> r.1.userId == ParseDigits(command[1]) && !IsUserBanned(r.0, r.1.userId)
    ensures r.1.UnbanUsage? ==> r.0 == s
    ensures forall v :: v != ParseDigitsOr(command) ==> IsUserBanned(r.0, v) == IsUserBanned(s, v)
  {
    if |command| < 2 || !IsDigitString(command[1]) then (s, UnbanUsage)
    else
      var target := ParseDigits(command[1]);
      (SetBanStatus(s, target, false, now), Unbanned(target))
  }

  /** `/ban 42 spam links` bans user 42 with the reason "spam links", and `/unban 42` lifts it again. */
  lemma BanThenUnban(s: Store, ownerId: int, botId: int, now: int, ban: seq<string>, unban: seq<string>)
    requires ban == ["/ban", "42", "spam", "links"] && unban == ["/unban", "42"]
    requires ownerId != 42 && botId != 42
    ensures BanCommand(s, ban, ownerId, botId, now).1 == Banned(42, "spam links")
    ensures IsUserBanned(BanCommand(s, ban, ownerId, botId, now).0, 42)
    ensures !IsUserBanned(UnbanCommand(BanCommand(s, ban, ownerId, botId, now).0, unban, now).0, 42)
  {
    assert IsDigitString("42");
    assert ParseDigits("42") == 42 by {
      assert "42"[..1] == "4";
    }
    assert ban[2..] == ["spam", "links"];
    assert Join(["spam", "links"], ' ') == "spam links" by {
      assert ["spam", "links"][1..] == ["links"];
    }
  }
}

=== FILE: Chat.dfy ===
/** The shapes of the chat transport's data that the bot's logic looks at. */
module Chat {
  import opened Wrappers

  /**
   * A channel as the bot names it: a numeric chat id, or a string (a public
   * `@handle`, or any other text a configuration or a command supplied).
   */
  datatype ChannelRef = ChatId(id: int) | ChatName(name: string)

  /** `msg.media.value`: the kind of attachment a message carries. */
  datatype MediaType = Video | Document | Audio | Photo | OtherMedia(value: string)

  /** The attachment object of the message's media kind (`msg.video`, `msg.document`, ...). */
  datatype Attachment = Attachment(fileId: string, fileName: Option<string>, fileSize: int)

  /** One message of a channel's history. */
  datatype ChatMessage = ChatMessage(
    id: int,
    media: Option<MediaType>,
    attachment: Attachment,
    caption: Option<string>)

  /** `ChatMemberStatus` of a user in a channel. */
  datatype MemberStatus = Owner | Administrator | Member | Restricted | Left | Kicked
}

=== FILE: Config.dfy ===
/**
 * Configuration (config.py): the `INDEX_CHANNELS` list parser and the check
 * that refuses to start without the essential settings. The environment is a
 * map from variable names to their string values.
 */
module Config {
  import opened Wrappers
  import opened Text
  import opened Numerals
  import opened Chat

  // ---------------------------------------------------------------------------
  // INDEX_CHANNELS
  // ---------------------------------------------------------------------------

  /** `str.split()` without arguments: the maximal runs of non-whitespace characters. */
  function SplitWhitespace(s: string): (ts: seq<string>)
    ensures ValidTokens(ts, IsNotSpace)
    ensures |ts| == 0 <==> forall i :: 0 <= i < |s| ==> IsSpace(s[i])
  {
    RunsEmpty(s, IsNotSpace);
    Runs(s, IsNotSpace)
  }

  /** Every token starting with `-` is an integer literal `int()` accepts. */
  predicate NegativeTokensParse(ts: seq<string>) {
    forall i :: 0 <= i < |ts| && StartsWith(ts[i], "-") ==> ParsePyInt(ts[i]).Some?
  }

  /** The list comprehension: tokens starting with `-` become integers, the others stay strings. */
  function ConvertTokens(ts: seq<string>): (r: seq<ChannelRef>)
    requires NegativeTokensParse(ts)
    ensures |r| == |ts|
  {
    seq(|ts|, i requires 0 <= i < |ts| && NegativeTokensParse(ts) =>
      if StartsWith(ts[i], "-") then ChatId(ParsePyInt(ts[i]).value) else ChatName(ts[i]))
  }

  /** The fallback after a ValueError: every token as a string. */
  function AsNames(ts: seq<string>): (r: seq<ChannelRef>)
    ensures |r| == |ts|
  {
    seq(|ts|, i requires 0 <= i < |ts| => ChatName(ts[i]))
  }

  /**
   * `INDEX_CHANNELS`: one entry per whitespace-separated token, in order.
   * A token starting with `-` becomes an integer, anything else (a bare digit
   * string included) stays a string; if any `-` token is not an integer the
   * comprehension raises and every token is kept as a string.
   */
  function ParseIndexChannels(s: string): (r: seq<ChannelRef>)
    ensures |r| == |SplitWhitespace(s)|
    ensures |r| == 0 <==> forall i :: 0 <= i < |s| ==> IsSpace(s[i])
    ensures forall i :: 0 <= i < |r| && r[i].ChatName? ==> r[i].name == SplitWhitespace(s)[i]
    ensures forall i :: 0 <= i < |r| && !StartsWith(SplitWhitespace(s)[i], "-") ==>
              r[i] == ChatName(SplitWhitespace(s)[i])
    ensures forall i :: 0 <= i < |r| && r[i].ChatId? ==>
              StartsWith(SplitWhitespace(s)[i], "-") && ParsePyInt(SplitWhitespace(s)[i]) == Some(r[i].id)
    ensures !NegativeTokensParse(SplitWhitespace(s)) ==> forall i :: 0 <= i < |r| ==> r[i].ChatName?
    ensures NegativeTokensParse(SplitWhitespace(s)) ==>
              forall i :: 0 <= i < |r| && StartsWith(SplitWhitespace(s)[i], "-") ==> r[i].ChatId?
  {
    var ts := SplitWhitespace(s);
    if NegativeTokensParse(ts) then ConvertTokens(ts) else AsNames(ts)
  }

  /**
   * Writing a list of tokens into the variable separated by single spaces and
   * parsing it gives back one entry per token, in order.
   */
  lemma ParseJoinedTokens(ts: seq<string>)
    requires ValidTokens(ts, IsNotSpace)
    ensures SplitWhitespace(Join(ts, ' ')) == ts
    ensures NegativeTokensParse(ts) ==> ParseIndexChannels(Join(ts, ' ')) == ConvertTokens(ts)
    ensures !NegativeTokensParse(ts) ==> ParseIndexChannels(Join(ts, ' ')) == AsNames(ts)
  {
    RunsOfJoin(ts, ' ', IsNotSpace);
  }

  /**
   * A value such as "-100123 @movies 12345": a negative channel id becomes
   * that integer, while a public handle and a bare digit string stay strings.
   */
  lemma IndexChannelsMixed(id: int, handle: string, digits: string)
    requires id < 0
    requires StartsWith(handle, "@") && All(handle, IsNotSpace)
    requires IsDigitString(digits)
    ensures ParseIndexChannels(Join([IntToString(id), handle, digits], ' '))
            == [ChatId(id), ChatName(handle), ChatName(digits)]
  {
    var ts := [IntToString(id), handle, digits];
    NegativeIdToken(id);
    DigitToken(digits);
    ParsePyIntOfIntToString(id);
    MixedTokens(ts, IntToString(id), handle, digits);
    ParseJoinedTokens(ts);
    assert ConvertTokens(ts) == [ChatId(id), ChatName(handle), ChatName(digits)];
  }

  /** The decimal form of a negative number is a token starting with `-`. */
  lemma NegativeIdToken(id: int)
    requires id < 0
    ensures All(IntToString(id), IsNotSpace) && StartsWith(IntToString(id), "-")
  {
    var t := IntToString(id);
    assert t == "-" + NatToString(-id);
    forall i | 0 <= i < |t|
      ensures IsNotSpace(t[i])
    {
      if i > 0 {
        assert t[i] == NatToString(-id)[i - 1];
      }
    }
  }

  lemma DigitToken(digits: string)
    requires IsDigitString(digits)
    ensures All(digits, IsNotSpace) && !StartsWith(digits, "-")
  {
    forall i | 0 <= i < |digits|
      ensures IsNotSpace(digits[i])
    {
      assert IsDigit(digits[i]);
    }
    assert IsDigit(digits[0]) && digits[..1][0] == digits[0];
  }

  lemma MixedTokens(ts: seq<string>, t: string, handle: string, digits: string)
    requires ts == [t, handle, digits]
    requires All(ts[0], IsNotSpace) && StartsWith(ts[0], "-") && ParsePyInt(ts[0]).Some?
    requires StartsWith(handle, "@") && All(handle, IsNotSpace)
    requires All(digits, IsNotSpace) && !StartsWith(digits, "-") && |digits| > 0
    ensures ValidTokens(ts, IsNotSpace) && NegativeTokensParse(ts)
  {
    assert handle[..1][0] == '@';
    assert !StartsWith(ts[1], "-") && !StartsWith(ts[2], "-");
    forall i | 0 <= i < |ts| && StartsWith(ts[i], "-")
      ensures ParsePyInt(ts[i]).Some?
    {
      assert i == 0;
    }
  }

  /** With "-abc @movies" the `-abc` token is not an integer, so both tokens stay strings. */
  lemma IndexChannelsFallbackExample(s: string)
    requires s == "-abc @movies"
    ensures ParseIndexChannels(s) == [ChatName("-abc"), ChatName("@movies")]
  {
    var ts := ["-abc", "@movies"];
    JoinTwo("-abc", "@movies", ' ');
    FallbackValue(s);
    FallbackTokens(ts);
    ParseJoinedTokens(ts);
  }

  lemma FallbackValue(s: string)
    requires s == "-abc @movies"
    ensures s == "-abc" + [' '] + "@movies"
  {
  }

  lemma FallbackTokens(ts: seq<string>)
    requires ts == ["-abc", "@movies"]
    ensures ValidTokens(ts, IsNotSpace)
    ensures !NegativeTokensParse(ts)
  {
    assert !IsDigit("-abc"[1..][0]);
    assert StartsWith(ts[0], "-") && ParsePyInt(ts[0]).None?;
  }

  // ---------------------------------------------------------------------------
  // Essential settings
  // ---------------------------------------------------------------------------

  /** The values `all([...])` looks at: integers and strings. */
  datatype PyValue = PyInt(i: int) | PyStr(s: string)

  /** Python truthiness: a non-zero integer or a non-empty string. */
  predicate IsTruthy(v: PyValue) {
    match v
    case PyInt(i) => i != 0
    case PyStr(s) => |s| > 0
  }

  /** Python's `all(...)`, element by element. */
  function AllTruthy(vs: seq<PyValue>): (r: bool)
    ensures r <==> forall i :: 0 <= i < |vs| ==> IsTruthy(vs[i])
    decreases |vs|
  {
    if |vs| == 0 then true
    else
      assert forall i :: 1 <= i < |vs| ==> vs[i] == vs[1..][i - 1];
      IsTruthy(vs[0]) && AllTruthy(vs[1..])
  }

  datatype Essentials = Essentials(apiId: int, apiHash: string, botToken: string, databaseUri: string, ownerId: int)

  /** The basic validation: `all([API_ID, API_HASH, BOT_TOKEN, DATABASE_URI, OWNER_ID])`. */
  predicate EssentialsPresent(e: Essentials) {
    AllTruthy([PyInt(e.apiId), PyStr(e.apiHash), PyStr(e.botToken), PyStr(e.databaseUri), PyInt(e.ownerId)])
  }

  /** Startup is refused exactly when one of the five settings is zero or empty. */
  lemma EssentialsPresentExactly(e: Essentials)
    ensures EssentialsPresent(e) <==>
              e.apiId != 0 && |e.apiHash| > 0 && |e.botToken| > 0 && |e.databaseUri| > 0 && e.ownerId != 0
  {
    var vs := [PyInt(e.apiId), PyStr(e.apiHash), PyStr(e.botToken), PyStr(e.databaseUri), PyInt(e.ownerId)];
    assert IsTruthy(vs[0]) && IsTruthy(vs[1]) && IsTruthy(vs[2]) && IsTruthy(vs[3]) && IsTruthy(vs[4])
           <==> e.apiId != 0 && |e.apiHash| > 0 && |e.botToken| > 0 && |e.databaseUri| > 0 && e.ownerId != 0;
  }

  datatype Settings = Settings(essentials: Essentials, indexChannels: seq<ChannelRef>)

  datatype ConfigError = NotAnInteger(name: string) | MissingEssentials

  /** `os.environ.get(name, default)`. */
  function Get(env: map<string, string>, name: string, default: string): string {
    if name in env then env[name] else default
  }

  /**
   * Loading the configuration: `API_ID` and `OWNER_ID` go through `int()`
   * (default "0"), which raises on anything else than an integer literal;
   * the string settings default to "". The result is refused when an
   * essential setting is zero or empty; an empty `INDEX_CHANNELS` only warns.
   */
  function LoadConfig(env: map<string, string>): (r: Result<Settings, ConfigError>)
    ensures ParsePyInt(Get(env, "API_ID", "0")).None? ==> r == Failure(NotAnInteger("API_ID"))
    ensures ParsePyInt(Get(env, "API_ID", "0")).Some? && ParsePyInt(Get(env, "OWNER_ID", "0")).None? ==>
              r == Failure(NotAnInteger("OWNER_ID"))
    ensures var apiId := ParsePyInt(Get(env, "API_ID", "0"));
            var ownerId := ParsePyInt(Get(env, "OWNER_ID", "0"));
            apiId.Some? && ownerId.Some? ==>
              && (r.Success? <==>
                    EssentialsPresent(Essentials(apiId.value, Get(env, "API_HASH", ""), Get(env, "BOT_TOKEN", ""),
                                                 Get(env, "DATABASE_URI", ""), ownerId.value)))
              && (r.Failure? ==> r.error == MissingEssentials)
    ensures r.Success? ==> EssentialsPresent(r.value.essentials)
    ensures r.Success? ==> ParsePyInt(Get(env, "API_ID", "0")) == Some(r.value.essentials.apiId)
                           && ParsePyInt(Get(env, "OWNER_ID", "0")) == Some(r.value.essentials.ownerId)
    ensures r.Success? ==> r.value.indexChannels == ParseIndexChannels(Get(env, "INDEX_CHANNELS", ""))
    ensures r.Success? ==> r.value.essentials.apiHash == Get(env, "API_HASH", "")
                           && r.value.essentials.botToken == Get(env, "BOT_TOKEN", "")
                           && r.value.essentials.databaseUri == Get(env, "DATABASE_URI", "")
  {
    match ParsePyInt(Get(env, "API_ID", "0"))
    case None => Failure(NotAnInteger("API_ID"))
    case Some(apiId) =>
      match ParsePyInt(Get(env, "OWNER_ID", "0"))
      case None => Failure(NotAnInteger("OWNER_ID"))
      case Some(ownerId) =>
        var e := Essentials(apiId, Get(env, "API_HASH", ""), Get(env, "BOT_TOKEN", ""),
                            Get(env, "DATABASE_URI", ""), ownerId);
        if !EssentialsPresent(e) then Failure(MissingEssentials)
        else Success(Settings(e, ParseIndexChannels(Get(env, "INDEX_CHANNELS", ""))))
  }

  /**
   * Writing a configuration into the environment, integers in decimal and the
   * channel list space-separated, and loading it gives the same settings
   * back when its essentials are present, and refuses it otherwise.
   */
  lemma LoadConfigRoundTrip(env: map<string, string>, e: Essentials, ts: seq<string>)
    requires "API_ID" in env && env["API_ID"] == IntToString(e.apiId)
    requires "OWNER_ID" in env && env["OWNER_ID"] == IntToString(e.ownerId)
    requires "API_HASH" in env && env["API_HASH"] == e.apiHash
    requires "BOT_TOKEN" in env && env["BOT_TOKEN"] == e.botToken
    requires "DATABASE_URI" in env && env["DATABASE_URI"] == e.databaseUri
    requires "INDEX_CHANNELS" in env && env["INDEX_CHANNELS"] == Join(ts, ' ')
    requires ValidTokens(ts, IsNotSpace)
    ensures EssentialsPresent(e) ==>
              LoadConfig(env) == Success(Settings(e, if NegativeTokensParse(ts) then ConvertTokens(ts) else AsNames(ts)))
    ensures !EssentialsPresent(e) ==> LoadConfig(env) == Failure(MissingEssentials)
  {
    ParsePyIntOfIntToString(e.apiId);
    ParsePyIntOfIntToString(e.ownerId);
    ParseJoinedTokens(ts);
  }

  /** With nothing set, both integers default to 0 and startup is refused. */
  lemma EmptyEnvironmentRefused()
    ensures LoadConfig(map[]) == Failure(MissingEssentials)
  {
    assert ParseDigits("0") == 0 by {
      assert "0"[..0] == "";
    }
    ParsePyIntOfDigits("0");
  }
}

=== FILE: Indexing.dfy ===
/**
 * Channel indexing (main.py): the scan of one channel's history as a fold
 * over the items the transport delivers, the `/index` command that scans a
 * list of channels one after another, and `/clearindex` for one channel.
 *
 * The transport is given as data: `resolve` answers `get_chat`, `history`
 * lists what iterating `get_chat_history` yields, and each delivered message
 * carries the outcome of its database write and of its progress-message edit.
 */
module Indexing {
  import opened Wrappers
  import opened Text
  import opened Numerals
  import opened Chat
  import opened MediaStore

  /** One step of iterating a channel's history. */
  datatype HistoryItem =
    | Delivered(msg: ChatMessage, writeOk: bool, editOk: bool)
    | FloodWaitRaised(seconds: nat)
    | ErrorRaised

  datatype Counts = Counts(processed: nat, skipped: nat, failed: nat) {
    function Total(): nat {
      processed + skipped + failed
    }
  }

  /** The progress message is edited whenever the running total reaches a multiple of this. */
  const ProgressEvery: nat := 100

  // ---------------------------------------------------------------------------
  // One message
  // ---------------------------------------------------------------------------

  /** The kinds of media the scan stores. */
  predicate IsIndexable(t: MediaType) {
    t == Video || t == Document || t == Audio
  }

  /** Whether the scan stores a message at all. */
  predicate IsIndexableMessage(m: ChatMessage) {
    m.media.Some? && IsIndexable(m.media.value)
  }

  /** The name given to a file the transport reports without one. */
  function SynthesizedName(t: MediaType, messageId: int): (r: string)
    requires IsIndexable(t)
    ensures |r| > 0
  {
    match t
    case Video => "video_" + IntToString(messageId) + ".mp4"
    case Document => "document_" + IntToString(messageId)
    case Audio => "audio_" + IntToString(messageId) + ".mp3"
  }

  /** The `file_type` string stored for each indexable kind of media. */
  function StoredType(t: MediaType): FileType
    requires IsIndexable(t)
  {
    match t
    case Video => VideoFile
    case Document => DocumentFile
    case Audio => AudioFile
  }

  /** `msg.caption or ""` followed by `caption if caption else None`. */
  function StoredCaption(caption: Option<string>): (r: Option<string>)
    ensures r != Some("")
    ensures caption.Some? && caption.value != "" ==> r == caption
    ensures caption == None || caption == Some("") ==> r == None
  {
    if caption.Some? && caption.value != "" then caption else None
  }

  /**
   * Classification and extraction: a message is written only when it carries
   * a video, a document or an audio file; the others are skipped.
   */
  function Extract(m: ChatMessage): (r: Option<MediaFields>)
    ensures r.Some? <==> IsIndexableMessage(m)
    ensures r.Some? ==> r.value.fileName.Some? && |r.value.fileName.value| > 0
    ensures r.Some? ==> r.value.caption != Some("")
    ensures r.Some? ==> r.value.caption == StoredCaption(m.caption) && r.value.fileType == StoredType(m.media.value)
    ensures r.Some? ==> r.value.fileId == m.attachment.fileId && r.value.fileSize == m.attachment.fileSize
    ensures r.Some? && m.attachment.fileName.Some? && m.attachment.fileName.value != "" ==>
              r.value.fileName == m.attachment.fileName
    ensures r.Some? && (m.attachment.fileName == None || m.attachment.fileName == Some("")) ==>
              r.value.fileName == Some(SynthesizedName(m.media.value, m.id))
  {
    match m.media
    case None => None
    case Some(t) =>
      if !IsIndexable(t) then None
      else
        var name := if m.attachment.fileName.Some? && m.attachment.fileName.value != ""
                    then m.attachment.fileName.value
                    else SynthesizedName(t, m.id);
        Some(MediaFields(m.attachment.fileId, Some(name), StoredCaption(m.caption), StoredType(t), m.attachment.fileSize))
  }

  /**
   * The counting rule for one delivered message: a skipped message counts as
   * skipped, a failed write as failed, a successful one as processed; and when
   * the total then reaches a multiple of `ProgressEvery` the progress message
   * is edited, and a failed edit lands in the same handler and counts as failed too.
   */
  function MessageCounts(m: ChatMessage, writeOk: bool, editOk: bool, c: Counts): (r: Counts)
    ensures !IsIndexableMessage(m) ==> r == Counts(c.processed, c.skipped + 1, c.failed)
    ensures IsIndexableMessage(m) && !writeOk ==> r == Counts(c.processed, c.skipped, c.failed + 1)
    ensures IsIndexableMessage(m) && writeOk && (c.Total() + 1) % ProgressEvery == 0 && !editOk ==>
              r == Counts(c.processed + 1, c.skipped, c.failed + 1)
    ensures IsIndexableMessage(m) && writeOk && ((c.Total() + 1) % ProgressEvery != 0 || editOk) ==>
              r == Counts(c.processed + 1, c.skipped, c.failed)
  {
    if !IsIndexableMessage(m) then c.(skipped := c.skipped + 1)
    else if !writeOk then c.(failed := c.failed + 1)
    else
      var c' := c.(processed := c.processed + 1);
      if c'.Total() % ProgressEvery == 0 && !editOk then c'.(failed := c'.failed + 1) else c'
  }

  /**
   * Each message adds one to the total of the counters, and a second one
   * only when it is written and its progress edit fails.
   */
  lemma MessageCountsTotal(m: ChatMessage, writeOk: bool, editOk: bool, c: Counts)
    ensures c.Total() + 1 <= MessageCounts(m, writeOk, editOk, c).Total() <= c.Total() + 2
    ensures editOk ==> MessageCounts(m, writeOk, editOk, c).Total() == c.Total() + 1
  {
  }

  /**
   * The store effect of one delivered message: an indexable message whose
   * write succeeds is upserted under (channel, message id) with the extracted
   * fields; anything else leaves the store as it was.
   */
  function WriteMessage(s: Store, channelId: int, m: ChatMessage, writeOk: bool, now: int): (r: Store)
    ensures Extract(m).None? || !writeOk ==> r == s
    ensures Extract(m).Some? && writeOk ==>
              && r.media.Keys == s.media.Keys + {MediaKey(channelId, m.id)}
              && r.media[MediaKey(channelId, m.id)].fields == Extract(m).value
              && (forall k :: k in s.media && k != MediaKey(channelId, m.id) ==> r.media[k] == s.media[k])
    ensures Consistent(s) ==> Consistent(r)
  {
    match Extract(m)
    case None => s
    case Some(f) =>
      if writeOk then
        AddMediaConsistent(s, channelId, m.id, f, now);
        AddMedia(s, channelId, m.id, f, now)
      else s
  }

  // ---------------------------------------------------------------------------
  // One channel
  // ---------------------------------------------------------------------------

  /** How iterating the history ended. */
  datatype ScanEnd = Exhausted | FloodWaited(seconds: nat) | Crashed

  datatype ScanRun = ScanRun(store: Store, counts: Counts, end: ScanEnd)

  /** A record the scan of channel `channelId` wrote: in that channel, named, and without an empty caption. */
  predicate WrittenByScan(rec: MediaRecord, channelId: int) {
    && rec.channelId == channelId
    && rec.fields.fileName.Some? && |rec.fields.fileName.value| > 0
    && rec.fields.caption != Some("")
  }

  /**
   * `after` keeps every record of `before`; each record it holds is either
   * untouched or one a scan of a channel in `ids` wrote under a key of that
   * channel. Checkpoints and users are untouched.
   */
  ghost predicate OnlyScanWrites(before: Store, after: Store, ids: set<int>) {
    && before.media.Keys <= after.media.Keys
    && (forall k :: k in after.media ==>
          || (k in before.media && after.media[k] == before.media[k])
          || (k.channelId in ids && WrittenByScan(after.media[k], k.channelId)))
    && after.checkpoints == before.checkpoints
    && after.users == before.users
  }

  /** Scans of more channels may write more. */
  lemma OnlyScanWritesChain(a: Store, b: Store, c: Store, ids1: set<int>, ids2: set<int>)
    requires OnlyScanWrites(a, b, ids1) && OnlyScanWrites(b, c, ids2)
    ensures OnlyScanWrites(a, c, ids1 + ids2)
  {
  }

  /** The counts of a scan: the counting rule folded over the messages delivered before the iteration stops. */
  function ScanCounts(items: seq<HistoryItem>, c: Counts): (r: Counts)
    ensures r.processed >= c.processed && r.skipped >= c.skipped && r.failed >= c.failed
    decreases |items|
  {
    if |items| == 0 || !items[0].Delivered? then c
    else ScanCounts(items[1..], MessageCounts(items[0].msg, items[0].writeOk, items[0].editOk, c))
  }

  /** How a scan ends: decided by the first item that is not a delivered message. */
  function ScanEndOf(items: seq<HistoryItem>): ScanEnd
    decreases |items|
  {
    if |items| == 0 then Exhausted
    else match items[0]
      case FloodWaitRaised(n) => FloodWaited(n)
      case ErrorRaised => Crashed
      case Delivered(_, _, _) => ScanEndOf(items[1..])
  }

  /**
   * The `async for` over the history. A message is scanned as above; a
   * FloodWait or any other exception raised by the iteration ends it, and
   * nothing after that item is looked at. Its counts and the way it ends do
   * not depend on the store it writes to.
   */
  function ScanHistory(s: Store, channelId: int, items: seq<HistoryItem>, c: Counts, now: int): (r: ScanRun)
    ensures OnlyScanWrites(s, r.store, {channelId})
    ensures Consistent(s) ==> Consistent(r.store)
    ensures r.counts == ScanCounts(items, c)
    ensures r.end == ScanEndOf(items)
    decreases |items|
  {
    if |items| == 0 then ScanRun(s, c, Exhausted)
    else
      match items[0]
      case FloodWaitRaised(n) => ScanRun(s, c, FloodWaited(n))
      case ErrorRaised => ScanRun(s, c, Crashed)
      case Delivered(m, writeOk, editOk) =>
        ScanHistory(WriteMessage(s, channelId, m, writeOk, now), channelId, items[1..],
                    MessageCounts(m, writeOk, editOk, c), now)
  }

  /** The number of messages delivered before the iteration stops: the items before the first raise. */
  function DeliveredBeforeStop(items: seq<HistoryItem>): (n: nat)
    ensures n <= |items|
    ensures forall i :: 0 <= i < n ==> items[i].Delivered?
    ensures n < |items| ==> !items[n].Delivered?
    decreases |items|
  {
    if |items| == 0 || !items[0].Delivered? then 0
    else
      var n' := DeliveredBeforeStop(items[1..]);
      assert forall i :: 1 <= i <= n' ==> items[i] == items[1..][i - 1];
      1 + n'
  }

  predicate EditsSucceed(items: seq<HistoryItem>) {
    forall i :: 0 <= i < |items| && items[i].Delivered? ==> items[i].editOk
  }

  /**
   * Every delivered message is counted once as processed, skipped or failed,
   * and once more as failed when its progress edit fails; so with working
   * edits the three counters add up to the messages iterated.
   */
  lemma {:induction false} ScanAccounting(items: seq<HistoryItem>, c: Counts)
    ensures c.Total() + DeliveredBeforeStop(items) <= ScanCounts(items, c).Total()
                                                   <= c.Total() + 2 * DeliveredBeforeStop(items)
    ensures EditsSucceed(items) ==> ScanCounts(items, c).Total() == c.Total() + DeliveredBeforeStop(items)
    decreases |items|
  {
    if |items| > 0 && items[0].Delivered? {
      var c' := MessageCounts(items[0].msg, items[0].writeOk, items[0].editOk, c);
      MessageCountsTotal(items[0].msg, items[0].writeOk, items[0].editOk, c);
      ScanAccounting(items[1..], c');
      if EditsSucceed(items) {
        assert items[0].editOk;
        assert EditsSucceed(items[1..]) by {
          forall i | 0 <= i < |items[1..]| && items[1..][i].Delivered?
            ensures items[1..][i].editOk
          {
            assert items[1..][i] == items[i + 1];
          }
        }
      }
    }
  }

  /** A history in which every item is a delivered message runs to exhaustion. */
  lemma {:induction false} DeliveredOnlyExhausts(items: seq<HistoryItem>)
    requires forall i :: 0 <= i < |items| ==> items[i].Delivered?
    ensures ScanEndOf(items) == Exhausted
    decreases |items|
  {
    if |items| > 0 {
      DeliveredOnlyExhausts(items[1..]);
    }
  }

  /**
   * A FloodWait or other exception raised by the iteration ends the scan for
   * good: the result is that of the messages before it, and whatever the
   * history would have delivered afterwards is never looked at.
   */
  lemma {:induction false} RaiseEndsScan(s: Store, channelId: int, pre: seq<HistoryItem>, raised: HistoryItem,
                                         rest: seq<HistoryItem>, c: Counts, now: int)
    requires forall i :: 0 <= i < |pre| ==> pre[i].Delivered?
    requires !raised.Delivered?
    ensures ScanHistory(s, channelId, pre + [raised] + rest, c, now)
            == ScanHistory(s, channelId, pre, c, now).(end := if raised.ErrorRaised? then Crashed else FloodWaited(raised.seconds))
    decreases |pre|
  {
    if |pre| == 0 {
      assert pre + [raised] + rest == [raised] + rest;
    } else {
      var m := pre[0];
      assert (pre + [raised] + rest)[1..] == pre[1..] + [raised] + rest;
      assert (pre + [raised] + rest)[0] == m;
      RaiseEndsScan(WriteMessage(s, channelId, m.msg, m.writeOk, now), channelId, pre[1..], raised, rest,
                    MessageCounts(m.msg, m.writeOk, m.editOk, c), now);
    }
  }

  // ---------------------------------------------------------------------------
  // What the scan stores
  // ---------------------------------------------------------------------------

  /** A delivered item the scan upserts: an indexable message whose write succeeds. */
  predicate IsWrite(item: HistoryItem) {
    item.Delivered? && item.writeOk && IsIndexableMessage(item.msg)
  }

  /** None of the items from `lo` up to `hi` is a write to key `k` of channel `channelId`. */
  predicate NoWriteTo(items: seq<HistoryItem>, lo: nat, hi: nat, channelId: int, k: MediaKey)
    requires hi <= |items|
  {
    forall j :: lo <= j < hi ==> !(IsWrite(items[j]) && MediaKey(channelId, items[j].msg.id) == k)
  }

  /** Dropping the first item shifts every range by one. */
  lemma NoWriteToShift(items: seq<HistoryItem>, lo: nat, hi: nat, channelId: int, k: MediaKey)
    requires 1 <= lo <= hi <= |items|
    ensures NoWriteTo(items, lo, hi, channelId, k) <==> NoWriteTo(items[1..], lo - 1, hi - 1, channelId, k)
  {
    assert forall j :: lo <= j < hi ==> items[j] == items[1..][j - 1];
    assert forall j :: lo - 1 <= j < hi - 1 ==> items[1..][j] == items[j + 1];
  }

  /**
   * A key no message before the stop writes to is left alone by the scan:
   * absent if it was absent, holding the same record if it was present.
   */
  lemma {:induction false} ScanKeepsUnwritten(s: Store, channelId: int, items: seq<HistoryItem>, c: Counts, now: int,
                                               k: MediaKey)
    requires NoWriteTo(items, 0, DeliveredBeforeStop(items), channelId, k)
    ensures var r := ScanHistory(s, channelId, items, c, now).store;
            (k in r.media <==> k in s.media) && (k in s.media ==> r.media[k] == s.media[k])
    decreases |items|
  {
    var n := DeliveredBeforeStop(items);
    if n > 0 {
      var item := items[0];
      var s1 := WriteMessage(s, channelId, item.msg, item.writeOk, now);
      assert !(IsWrite(item) && MediaKey(channelId, item.msg.id) == k);
      NoWriteToShift(items, 1, n, channelId, k);
      ScanKeepsUnwritten(s1, channelId, items[1..], MessageCounts(item.msg, item.writeOk, item.editOk, c), now, k);
    }
  }

  /**
   * Every message the scan writes before the iteration stops is in the store
   * under its (channel, message id) key with the fields extracted from it,
   * unless a later message writes the same key: the last write wins.
   */
  lemma {:induction false} ScanStoresWrites(s: Store, channelId: int, items: seq<HistoryItem>, c: Counts, now: int,
                                             i: nat)
    requires i < DeliveredBeforeStop(items) && IsWrite(items[i])
    requires NoWriteTo(items, i + 1, DeliveredBeforeStop(items), channelId, MediaKey(channelId, items[i].msg.id))
    ensures var r := ScanHistory(s, channelId, items, c, now).store;
            var k := MediaKey(channelId, items[i].msg.id);
            k in r.media && r.media[k].fields == Extract(items[i].msg).value
    decreases |items|
  {
    var n := DeliveredBeforeStop(items);
    var item := items[0];
    var s1 := WriteMessage(s, channelId, item.msg, item.writeOk, now);
    var c1 := MessageCounts(item.msg, item.writeOk, item.editOk, c);
    var k := MediaKey(channelId, items[i].msg.id);
    if i == 0 {
      NoWriteToShift(items, 1, n, channelId, k);
      ScanKeepsUnwritten(s1, channelId, items[1..], c1, now, k);
    } else {
      assert items[1..][i - 1] == items[i];
      NoWriteToShift(items, i + 1, n, channelId, k);
      ScanStoresWrites(s1, channelId, items[1..], c1, now, i - 1);
    }
  }

  /** The outcome of `index_channel` for one target. */
  datatype ChannelOutcome =
    | AccessFailed(target: ChannelRef)
    | Finished(channelId: int, counts: Counts, floodWait: Option<nat>)
    | Failed(target: ChannelRef)

  /**
   * What `index_channel` reports for a target, read off the lookup and the
   * channel's history alone: no summary without access, a summary after
   * exhaustion or a FloodWait, an error report after any other exception.
   */
  function ExpectedOutcome(target: ChannelRef, resolve: ChannelRef -> Option<int>,
                           history: int -> seq<HistoryItem>): ChannelOutcome
  {
    match resolve(target)
    case None => AccessFailed(target)
    case Some(id) =>
      match ScanEndOf(history(id))
      case Exhausted => Finished(id, ScanCounts(history(id), Counts(0, 0, 0)), None)
      case FloodWaited(n) => Finished(id, ScanCounts(history(id), Counts(0, 0, 0)), Some(n))
      case Crashed => Failed(target)
  }

  /**
   * `index_channel`: resolve the target with `get_chat` (a failure reports
   * and stops), scan the full history from a zeroed count, and report the
   * summary when the iteration ended by exhaustion or by a FloodWait; any
   * other exception reports an error instead of a summary. Writes already
   * made stay in the store in every case.
   */
  function IndexChannel(s: Store, target: ChannelRef, resolve: ChannelRef -> Option<int>,
                        history: int -> seq<HistoryItem>, now: int): (r: (Store, ChannelOutcome))
    ensures r.1 == ExpectedOutcome(target, resolve, history)
    ensures resolve(target).None? ==> r.0 == s
    ensures resolve(target).Some? ==> OnlyScanWrites(s, r.0, {resolve(target).value})
    ensures resolve(target).Some? ==>
              r.0 == ScanHistory(s, resolve(target).value, history(resolve(target).value), Counts(0, 0, 0), now).store
    ensures Consistent(s) ==> Consistent(r.0)
  {
    match resolve(target)
    case None => (s, AccessFailed(target))
    case Some(id) =>
      var run := ScanHistory(s, id, history(id), Counts(0, 0, 0), now);
      match run.end
      case Exhausted => (run.store, Finished(id, run.counts, None))
      case FloodWaited(n) => (run.store, Finished(id, run.counts, Some(n)))
      case Crashed => (run.store, Failed(target))
  }

  /**
   * What `index_channel` leaves in the store: each message of the channel's
   * history written before the iteration stops is there under its key with
   * its extracted fields, unless a later message writes the same key.
   */
  lemma IndexChannelStoresWrites(s: Store, target: ChannelRef, resolve: ChannelRef -> Option<int>,
                                 history: int -> seq<HistoryItem>, now: int, i: nat)
    requires resolve(target).Some?
    requires var id := resolve(target).value;
             var items := history(id);
             i < DeliveredBeforeStop(items) && IsWrite(items[i])
             && NoWriteTo(items, i + 1, DeliveredBeforeStop(items), id, MediaKey(id, items[i].msg.id))
    ensures var id := resolve(target).value;
            var m := history(id)[i].msg;
            var r := IndexChannel(s, target, resolve, history, now).0;
            MediaKey(id, m.id) in r.media && r.media[MediaKey(id, m.id)].fields == Extract(m).value
  {
    ScanStoresWrites(s, resolve(target).value, history(resolve(target).value), Counts(0, 0, 0), now, i);
  }

  /** Every key no write of the channel's scan touches is left as it was by `index_channel`. */
  lemma IndexChannelKeepsUnwritten(s: Store, target: ChannelRef, resolve: ChannelRef -> Option<int>,
                                   history: int -> seq<HistoryItem>, now: int, k: MediaKey)
    requires resolve(target).Some?
    requires var id := resolve(target).value;
             NoWriteTo(history(id), 0, DeliveredBeforeStop(history(id)), id, k)
    ensures var r := IndexChannel(s, target, resolve, history, now).0;
            (k in r.media <==> k in s.media) && (k in s.media ==> r.media[k] == s.media[k])
  {
    ScanKeepsUnwritten(s, resolve(target).value, history(resolve(target).value), Counts(0, 0, 0), now, k);
  }

  /**
   * A FloodWait reported by the history still produces the summary, with the
   * counts of the messages before it and the store they left; the scan does
   * not resume.
   */
  lemma FloodWaitStillSummarizes(s: Store, target: ChannelRef, resolve: ChannelRef -> Option<int>,
                                 history: int -> seq<HistoryItem>, now: int,
                                 pre: seq<HistoryItem>, n: nat, rest: seq<HistoryItem>)
    requires resolve(target).Some?
    requires history(resolve(target).value) == pre + [FloodWaitRaised(n)] + rest
    requires forall i :: 0 <= i < |pre| ==> pre[i].Delivered?
    ensures var id := resolve(target).value;
            IndexChannel(s, target, resolve, history, now)
            == (ScanHistory(s, id, pre, Counts(0, 0, 0), now).store,
                Finished(id, ScanCounts(pre, Counts(0, 0, 0)), Some(n)))
  {
    var id := resolve(target).value;
    RaiseEndsScan(s, id, pre, FloodWaitRaised(n), rest, Counts(0, 0, 0), now);
  }

  /** Every item is a delivered message whose write and progress edit both succeed. */
  predicate AllWorking(items: seq<HistoryItem>) {
    |items| == 0 || (items[0].Delivered? && items[0].writeOk && items[0].editOk && AllWorking(items[1..]))
  }

  /** The number of delivered messages the scan stores. */
  function IndexableCount(items: seq<HistoryItem>): (n: nat)
    ensures n <= |items|
  {
    if |items| == 0 then 0
    else (if items[0].Delivered? && IsIndexableMessage(items[0].msg) then 1 else 0) + IndexableCount(items[1..])
  }

  /**
   * When every write and edit succeeds, each stored message counts as
   * processed, every other message as skipped, and nothing as failed.
   */
  lemma {:induction false} WorkingScanCounts(items: seq<HistoryItem>, c: Counts)
    requires AllWorking(items)
    ensures ScanCounts(items, c)
            == Counts(c.processed + IndexableCount(items), c.skipped + (|items| - IndexableCount(items)), c.failed)
    decreases |items|
  {
    if |items| > 0 {
      WorkingScanCounts(items[1..], MessageCounts(items[0].msg, true, true, c));
    }
  }

  /**
   * The four-message history text, video, photo, document, with working
   * writes and edits, is counted as two processed and two skipped.
   */
  lemma SkipAccountingExample(text: ChatMessage, video: ChatMessage, photo: ChatMessage, document: ChatMessage,
                              items: seq<HistoryItem>)
    requires text.media == None && video.media == Some(Video)
    requires photo.media == Some(Photo) && document.media == Some(Document)
    requires items == [Delivered(text, true, true), Delivered(video, true, true),
                       Delivered(photo, true, true), Delivered(document, true, true)]
    ensures ScanCounts(items, Counts(0, 0, 0)) == Counts(2, 2, 0)
  {
    var d1, d2, d3, d4 := items[0], items[1], items[2], items[3];
    var t4: seq<HistoryItem> := [];
    var t3 := [d4] + t4;
    var t2 := [d3] + t3;
    var t1 := [d2] + t2;
    assert items == [d1] + t1;
    IndexableCountCons(d4, t4);
    IndexableCountCons(d3, t3);
    IndexableCountCons(d2, t2);
    IndexableCountCons(d1, t1);
    AllWorkingCons(d4, t4);
    AllWorkingCons(d3, t3);
    AllWorkingCons(d2, t2);
    AllWorkingCons(d1, t1);
    WorkingScanCounts(items, Counts(0, 0, 0));
  }

  lemma AllWorkingCons(item: HistoryItem, rest: seq<HistoryItem>)
    ensures AllWorking([item] + rest) <==> item.Delivered? && item.writeOk && item.editOk && AllWorking(rest)
  {
    assert ([item] + rest)[1..] == rest;
  }

  lemma IndexableCountCons(item: HistoryItem, rest: seq<HistoryItem>)
    ensures IndexableCount([item] + rest)
            == (if item.Delivered? && IsIndexableMessage(item.msg) then 1 else 0) + IndexableCount(rest)
  {
    assert ([item] + rest)[1..] == rest;
  }

  /** One delivered message in front of a history adds its count and nothing else. */
  lemma ScanCountsCons(item: HistoryItem, rest: seq<HistoryItem>, c: Counts)
    requires item.Delivered?
    ensures ScanCounts([item] + rest, c) == ScanCounts(rest, MessageCounts(item.msg, item.writeOk, item.editOk, c))
  {
    assert ([item] + rest)[1..] == rest;
  }

  /**
   * A written message whose progress edit fails is counted twice: processed,
   * and failed by the handler the edit's exception reaches.
   */
  lemma FailedEditCountsTwice(m: ChatMessage, c: Counts)
    requires IsIndexableMessage(m)
    requires (c.Total() + 1) % ProgressEvery == 0
    ensures MessageCounts(m, true, false, c) == Counts(c.processed + 1, c.skipped, c.failed + 1)
  {
  }

  // ---------------------------------------------------------------------------
  // Commands
  // ---------------------------------------------------------------------------

  datatype IndexError = InvalidChannelFormat | NoChannelsConfigured

  /**
   * The channel list of `/index` (`command` is the command's words, the
   * command name first): an argument starting with `@` or `-` is kept as a
   * string, an all-digit argument becomes an integer, anything else is
   * refused; without an argument the configured list is used unless it is empty.
   */
  function IndexTargets(command: seq<string>, configured: seq<ChannelRef>): (r: Result<seq<ChannelRef>, IndexError>)
    ensures |command| > 1 ==>
              (r.Success? <==> StartsWith(command[1], "@") || StartsWith(command[1], "-") || IsDigitString(command[1]))
    ensures |command| > 1 && r.Success? ==>
              r.value == [if IsDigitString(command[1]) then ChatId(ParseDigits(command[1])) else ChatName(command[1])]
    ensures |command| <= 1 ==> (r.Success? <==> |configured| > 0)
    ensures |command| <= 1 && r.Success? ==> r.value == configured
    ensures r.Success? ==> |r.value| > 0
  {
    if |command| > 1 then
      var arg := command[1];
      if StartsWith(arg, "@") || StartsWith(arg, "-") || IsDigitString(arg) then
        Success([if IsDigitString(arg) then ChatId(ParseDigits(arg)) else ChatName(arg)])
      else Failure(InvalidChannelFormat)
    else if |configured| == 0 then Failure(NoChannelsConfigured)
    else Success(configured)
  }

  /**
   * The `for channel in target_channels` loop: every target is indexed, in
   * order. A target that cannot be resolved, or whose scan raises, reports so
   * and the loop goes on; what each target reports depends on its own lookup
   * and history, not on the channels before it.
   */
  function IndexAll(s: Store, targets: seq<ChannelRef>, resolve: ChannelRef -> Option<int>,
                    history: int -> seq<HistoryItem>, now: int): (r: (Store, seq<ChannelOutcome>))
    ensures |r.1| == |targets|
    ensures forall i :: 0 <= i < |targets| ==> r.1[i] == ExpectedOutcome(targets[i], resolve, history)
    ensures OnlyScanWrites(s, r.0, ResolvedIds(targets, resolve))
    ensures Consistent(s) ==> Consistent(r.0)
    decreases |targets|
  {
    if |targets| == 0 then (s, [])
    else
      var first := IndexChannel(s, targets[0], resolve, history, now);
      var rest := IndexAll(first.0, targets[1..], resolve, history, now);
      IndexAllStep(s, first.0, rest.0, targets, resolve);
      (rest.0, [first.1] + rest.1)
  }

  /** The channels a list of targets resolves to. */
  function ResolvedIds(targets: seq<ChannelRef>, resolve: ChannelRef -> Option<int>): set<int> {
    set i | 0 <= i < |targets| && resolve(targets[i]).Some? :: resolve(targets[i]).value
  }

  /** The first target's scan followed by the others' writes only to the channels of all of them. */
  lemma IndexAllStep(s: Store, mid: Store, after: Store, targets: seq<ChannelRef>, resolve: ChannelRef -> Option<int>)
    requires |targets| > 0
    requires resolve(targets[0]).None? ==> mid == s
    requires resolve(targets[0]).Some? ==> OnlyScanWrites(s, mid, {resolve(targets[0]).value})
    requires OnlyScanWrites(mid, after, ResolvedIds(targets[1..], resolve))
    ensures OnlyScanWrites(s, after, ResolvedIds(targets, resolve))
  {
    var tail := ResolvedIds(targets[1..], resolve);
    assert tail <= ResolvedIds(targets, resolve) by {
      forall id | id in tail
        ensures id in ResolvedIds(targets, resolve)
      {
        var u :| 0 <= u < |targets[1..]| && resolve(targets[1..][u]).Some? && resolve(targets[1..][u]).value == id;
        assert targets[1..][u] == targets[u + 1];
      }
    }
    if resolve(targets[0]).Some? {
      OnlyScanWritesChain(s, mid, after, {resolve(targets[0]).value}, tail);
    }
  }

  /** No target after the `t`-th resolves to the same channel as it. */
  predicate LastToResolve(targets: seq<ChannelRef>, resolve: ChannelRef -> Option<int>, t: nat)
    requires t < |targets|
  {
    forall u :: t < u < |targets| ==> resolve(targets[u]) != resolve(targets[t])
  }

  /**
   * What the loop over targets leaves in the store: for a target no later
   * target resolves to the same channel, each message of that channel's
   * history written before its iteration stops is in the store under its key
   * with its extracted fields, unless a later message writes the same key.
   */
  lemma {:induction false} IndexAllStoresWrites(s: Store, targets: seq<ChannelRef>, resolve: ChannelRef -> Option<int>,
                                                history: int -> seq<HistoryItem>, now: int, t: nat, i: nat)
    requires t < |targets| && resolve(targets[t]).Some? && LastToResolve(targets, resolve, t)
    requires var id := resolve(targets[t]).value;
             var items := history(id);
             i < DeliveredBeforeStop(items) && IsWrite(items[i])
             && NoWriteTo(items, i + 1, DeliveredBeforeStop(items), id, MediaKey(id, items[i].msg.id))
    ensures var id := resolve(targets[t]).value;
            var m := history(id)[i].msg;
            var r := IndexAll(s, targets, resolve, history, now).0;
            MediaKey(id, m.id) in r.media && r.media[MediaKey(id, m.id)].fields == Extract(m).value
    decreases |targets|
  {
    var first := IndexChannel(s, targets[0], resolve, history, now);
    if t == 0 {
      IndexChannelStoresWrites(s, targets[0], resolve, history, now, i);
      var id := resolve(targets[0]).value;
      assert id !in ResolvedIds(targets[1..], resolve) by {
        forall u | 0 <= u < |targets[1..]|
          ensures resolve(targets[1..][u]) != Some(id)
        {
          assert targets[1..][u] == targets[u + 1];
        }
      }
    } else {
      assert targets[1..][t - 1] == targets[t];
      assert LastToResolve(targets[1..], resolve, t - 1) by {
        forall u | t - 1 < u < |targets[1..]|
          ensures resolve(targets[1..][u]) != resolve(targets[1..][t - 1])
        {
          assert targets[1..][u] == targets[u + 1];
        }
      }
      IndexAllStoresWrites(first.0, targets[1..], resolve, history, now, t - 1, i);
    }
  }

  /** No target's scan writes to key `k` before its iteration stops. */
  predicate NoTargetWritesTo(targets: seq<ChannelRef>, resolve: ChannelRef -> Option<int>,
                             history: int -> seq<HistoryItem>, k: MediaKey)
  {
    forall t :: 0 <= t < |targets| && resolve(targets[t]).Some? ==>
      NoWriteTo(history(resolve(targets[t]).value), 0, DeliveredBeforeStop(history(resolve(targets[t]).value)),
                resolve(targets[t]).value, k)
  }

  /** A key no target's scan writes to is left as it was by the loop over targets. */
  lemma {:induction false} IndexAllKeepsUnwritten(s: Store, targets: seq<ChannelRef>, resolve: ChannelRef -> Option<int>,
                                                  history: int -> seq<HistoryItem>, now: int, k: MediaKey)
    requires NoTargetWritesTo(targets, resolve, history, k)
    ensures var r := IndexAll(s, targets, resolve, history, now).0;
            (k in r.media <==> k in s.media) && (k in s.media ==> r.media[k] == s.media[k])
    decreases |targets|
  {
    if |targets| > 0 {
      var first := IndexChannel(s, targets[0], resolve, history, now);
      if resolve(targets[0]).Some? {
        IndexChannelKeepsUnwritten(s, targets[0], resolve, history, now, k);
      }
      assert NoTargetWritesTo(targets[1..], resolve, history, k) by {
        assert forall u :: 0 <= u < |targets[1..]| ==> targets[1..][u] == targets[u + 1];
      }
      IndexAllKeepsUnwritten(first.0, targets[1..], resolve, history, now, k);
    }
  }

  /** `/index`: resolve the target list, then index every target in order. */
  function IndexCommand(s: Store, command: seq<string>, configured: seq<ChannelRef>,
                        resolve: ChannelRef -> Option<int>, history: int -> seq<HistoryItem>, now: int)
    : (r: Result<(Store, seq<ChannelOutcome>), IndexError>)
    ensures r.Success? <==> IndexTargets(command, configured).Success?
    ensures r.Success? ==> |r.value.1| == |IndexTargets(command, configured).value| > 0
    ensures r.Success? ==> forall i :: 0 <= i < |r.value.1| ==>
              r.value.1[i] == ExpectedOutcome(IndexTargets(command, configured).value[i], resolve, history)
    ensures r.Success? ==> OnlyScanWrites(s, r.value.0, ResolvedIds(IndexTargets(command, configured).value, resolve))
    ensures r.Success? && Consistent(s) ==> Consistent(r.value.0)
  {
    match IndexTargets(command, configured)
    case Failure(e) => Failure(e)
    case Success(targets) => Success(IndexAll(s, targets, resolve, history, now))
  }

  /** `IndexAllStoresWrites` for the targets `/index` resolves. */
  lemma IndexCommandStoresWrites(s: Store, command: seq<string>, configured: seq<ChannelRef>,
                                 resolve: ChannelRef -> Option<int>, history: int -> seq<HistoryItem>, now: int,
                                 t: nat, i: nat)
    requires IndexTargets(command, configured).Success?
    requires var targets := IndexTargets(command, configured).value;
             t < |targets| && resolve(targets[t]).Some? && LastToResolve(targets, resolve, t)
    requires var id := resolve(IndexTargets(command, configured).value[t]).value;
             var items := history(id);
             i < DeliveredBeforeStop(items) && IsWrite(items[i])
             && NoWriteTo(items, i + 1, DeliveredBeforeStop(items), id, MediaKey(id, items[i].msg.id))
    ensures var id := resolve(IndexTargets(command, configured).value[t]).value;
            var m := history(id)[i].msg;
            var r := IndexCommand(s, command, configured, resolve, history, now);
            r.Success? && MediaKey(id, m.id) in r.value.0.media
            && r.value.0.media[MediaKey(id, m.id)].fields == Extract(m).value
  {
    IndexAllStoresWrites(s, IndexTargets(command, configured).value, resolve, history, now, t, i);
  }

  /** `IndexAllKeepsUnwritten` for the targets `/index` resolves. */
  lemma IndexCommandKeepsUnwritten(s: Store, command: seq<string>, configured: seq<ChannelRef>,
                                   resolve: ChannelRef -> Option<int>, history: int -> seq<HistoryItem>, now: int,
                                   k: MediaKey)
    requires IndexTargets(command, configured).Success?
    requires NoTargetWritesTo(IndexTargets(command, configured).value, resolve, history, k)
    ensures var r := IndexCommand(s, command, configured, resolve, history, now);
            r.Success? && (k in r.value.0.media <==> k in s.media)
            && (k in s.media ==> r.value.0.media[k] == s.media[k])
  {
    IndexAllKeepsUnwritten(s, IndexTargets(command, configured).value, resolve, history, now, k);
  }

  datatype ClearReply = ClearUsage | ClearAllNeedsConfirmation | ChannelNotFound | Cleared(channelId: int, count: nat)

  /** The chat `/clearindex <target>` looks up: an all-digit target as an integer, anything else as a string. */
  function ClearTarget(target: string): (r: ChannelRef)
    ensures r.ChatId? <==> IsDigitString(target)
    ensures r.ChatName? ==> r.name == target
  {
    if IsDigitString(target) then ChatId(ParseDigits(target)) else ChatName(target)
  }

  /**
   * `/clearindex <target>`: without an argument it prints usage; `all`, in
   * any letter case, asks for an interactive confirmation and changes
   * nothing here; otherwise the target is resolved and that channel's
   * records and checkpoint are deleted, or an error is reported when it
   * cannot be resolved.
   */
  function ClearIndexCommand(s: Store, command: seq<string>, resolve: ChannelRef -> Option<int>): (r: (Store, ClearReply))
    ensures r.1.ClearUsage? <==> |command| < 2
    ensures r.1.ClearAllNeedsConfirmation? <==> |command| >= 2 && LowerStr(command[1]) == "all"
    ensures r.1.ChannelNotFound? <==>
              |command| >= 2 && LowerStr(command[1]) != "all" && resolve(ClearTarget(command[1])).None?
    ensures r.1.Cleared? ==>
              |command| >= 2 && LowerStr(command[1]) != "all" && resolve(ClearTarget(command[1])) == Some(r.1.channelId)
    ensures !r.1.Cleared? ==> r.0 == s
    ensures r.1.Cleared? ==>
              && (forall k :: k in r.0.media <==> k in s.media && s.media[k].channelId != r.1.channelId)
              && (forall k :: k in r.0.media ==> r.0.media[k] == s.media[k])
              && r.1.count + |r.0.media| == |s.media|
              && r.0.checkpoints.Keys == s.checkpoints.Keys - {r.1.channelId}
              && (forall c :: c in r.0.checkpoints ==> r.0.checkpoints[c] == s.checkpoints[c])
              && r.0.users == s.users
  {
    if |command| < 2 then (s, ClearUsage)
    else
      var target := command[1];
      if LowerStr(target) == "all" then (s, ClearAllNeedsConfirmation)
      else
        match resolve(ClearTarget(target))
        case None => (s, ChannelNotFound)
        case Some(id) =>
          var d := DeleteMediaByChannel(s, id);
          (d.0, Cleared(id, d.1))
  }

  /**
   * Clearing a channel twice: the second run finds nothing left to delete,
   * reports zero items and leaves the store as the first run left it.
   */
  lemma ClearIndexTwice(s: Store, command: seq<string>, resolve: ChannelRef -> Option<int>)
    requires ClearIndexCommand(s, command, resolve).1.Cleared?
    ensures var first := ClearIndexCommand(s, command, resolve);
            var second := ClearIndexCommand(first.0, command, resolve);
            second == (first.0, Cleared(first.1.channelId, 0))
  {
    var first := ClearIndexCommand(s, command, resolve);
    var id := first.1.channelId;
    assert first.0 == DeleteMediaByChannel(s, id).0;
    DeleteMediaByChannelTwice(s, id);
  }
}

=== FILE: Links.dfy ===
/**
 * `get_media_link` (main.py): the `t.me` link shown for a search result.
 *
 * A numeric id whose decimal form starts with `-100` is a private channel and
 * links through `c/`; any other number links through `c/` with its absolute
 * value; an `@handle` is looked up for its username, with the handle itself
 * as the fallback; any other string makes `abs()` raise a type error.
 */
module Links {
  import opened Wrappers
  import opened Text
  import opened Numerals
  import opened Chat

  /** The answer of `get_chat` for an `@handle`. */
  datatype ChatLookup = LookupFailed | Found(username: Option<string>)

  datatype LinkResult = Link(url: string) | LinkTypeError

  const LinkBase: string := "https://t.me/"

  /** A string formatted into an f-string: `None` prints as "None". */
  function Shown(v: Option<string>): (r: string)
    ensures v.Some? ==> r == v.value
  {
    v.OrElse("None")
  }

  /** The part of a link between the base and the message id; it does not depend on the message. */
  function LinkPath(channel: ChannelRef, lookup: ChatLookup): string {
    match channel
    case ChatId(id) =>
      if StartsWith(IntToString(id), "-100") then "c/" + Replace(IntToString(id), "-100", "")
      else "c/" + NatToString(if id < 0 then -id else id)
    case ChatName(name) =>
      match lookup
      case Found(username) => Shown(username)
      case LookupFailed => Replace(name, "@", "")
  }

  function MediaLink(channel: ChannelRef, messageId: int, lookup: ChatLookup): (r: LinkResult)
    ensures r.LinkTypeError? <==> channel.ChatName? && !StartsWith(channel.name, "@")
    ensures r.Link? ==> StartsWith(r.url, LinkBase)
  {
    if channel.ChatName? && !StartsWith(channel.name, "@") then LinkTypeError
    else Link(LinkBase + LinkPath(channel, lookup) + "/" + IntToString(messageId))
  }

  /** The path of a private channel `-100<digits>` is `c/<digits>`. */
  lemma PrivateChannelPath(id: int, digits: string, lookup: ChatLookup)
    requires IsDigitString(digits)
    requires IntToString(id) == "-100" + digits
    ensures LinkPath(ChatId(id), lookup) == "c/" + digits
  {
    var t := IntToString(id);
    assert t[..4] == "-100";
    assert forall i :: 0 <= i < |digits| ==> digits[i] != "-100"[0];
    ReplaceLeadingOnly(t, "-100", digits);
  }

  /** A private channel `-100<digits>` links to `c/<digits>/<message id>`. */
  lemma PrivateChannelLink(id: int, digits: string, messageId: int, lookup: ChatLookup)
    requires IsDigitString(digits)
    requires IntToString(id) == "-100" + digits
    ensures MediaLink(ChatId(id), messageId, lookup) == Link(LinkBase + "c/" + digits + "/" + IntToString(messageId))
  {
    PrivateChannelPath(id, digits, lookup);
    assert LinkBase + ("c/" + digits) == LinkBase + "c/" + digits;
  }

  /** The path of a non-negative id is `c/<id>`. */
  lemma NonNegativeIdPath(id: nat, lookup: ChatLookup)
    ensures LinkPath(ChatId(id), lookup) == "c/" + NatToString(id)
  {
    var t := IntToString(id);
    assert t == NatToString(id);
    assert IsDigit(t[0]);
    assert !StartsWith(t, "-100") by {
      assert |t| >= 4 ==> t[..4][0] == t[0];
    }
  }

  /** A non-negative id links to `c/<id>/<message id>`. */
  lemma NonNegativeIdLink(id: nat, messageId: int, lookup: ChatLookup)
    ensures MediaLink(ChatId(id), messageId, lookup)
            == Link(LinkBase + "c/" + NatToString(id) + "/" + IntToString(messageId))
  {
    NonNegativeIdPath(id, lookup);
    assert LinkBase + ("c/" + NatToString(id)) == LinkBase + "c/" + NatToString(id);
  }

  /**
   * A negative id that is not a `-100` private channel id links like its
   * absolute value: `abs()` drops the sign and the link goes through `c/`.
   */
  lemma NegativeIdLink(id: int, messageId: int, lookup: ChatLookup)
    requires id < 0 && !StartsWith(IntToString(id), "-100")
    ensures MediaLink(ChatId(id), messageId, lookup) == MediaLink(ChatId(-id), messageId, lookup)
    ensures MediaLink(ChatId(id), messageId, lookup)
            == Link(LinkBase + "c/" + NatToString(-id) + "/" + IntToString(messageId))
  {
    var path := "c/" + NatToString(-id);
    NegativeIdPath(id, lookup);
    NonNegativeIdPath(-id, lookup);
    IdLinkOfPath(id, messageId, lookup, path);
    IdLinkOfPath(-id, messageId, lookup, path);
  }

  lemma IdLinkOfPath(id: int, messageId: int, lookup: ChatLookup, path: string)
    requires LinkPath(ChatId(id), lookup) == path
    ensures MediaLink(ChatId(id), messageId, lookup) == Link(LinkBase + path + "/" + IntToString(messageId))
  {
  }

  lemma NegativeIdPath(id: int, lookup: ChatLookup)
    requires id < 0 && !StartsWith(IntToString(id), "-100")
    ensures LinkPath(ChatId(id), lookup) == "c/" + NatToString(-id)
  {
  }

  /**
   * An `@handle` links through the username the lookup returns, and through
   * the handle without its `@` when the lookup fails.
   */
  lemma HandleLink(handle: string, messageId: int, lookup: ChatLookup)
    requires forall i :: 0 <= i < |handle| ==> handle[i] != '@'
    ensures lookup.Found? && lookup.username.Some? ==>
              MediaLink(ChatName("@" + handle), messageId, lookup)
              == Link(LinkBase + lookup.username.value + "/" + IntToString(messageId))
    ensures lookup.LookupFailed? ==>
              MediaLink(ChatName("@" + handle), messageId, lookup)
              == Link(LinkBase + handle + "/" + IntToString(messageId))
  {
    assert StartsWith("@" + handle, "@");
    ReplaceLeadingOnly("@" + handle, "@", handle);
  }

  /** `str(-100123)` is "-100" followed by "123". */
  lemma PrivateIdNumeral(id: int)
    requires id == -100123
    ensures IntToString(id) == "-100" + "123"
  {
    var one := NatToString(1);
    assert one == "1";
    NatToStringAppend(1, 0);
    NatToStringAppend(10, 0);
    NatToStringAppend(100, 1);
    NatToStringAppend(1001, 2);
    NatToStringAppend(10012, 3);
    assert NatToString(100123) == one + [DigitChar(0), DigitChar(0), DigitChar(1), DigitChar(2), DigitChar(3)];
  }

  /** `str(42)` is "42". */
  lemma MessageIdNumeral(messageId: int)
    requires messageId == 42
    ensures IntToString(messageId) == "42"
  {
    NatToStringAppend(4, 2);
    assert NatToString(4) == "4";
  }

  /** The private channel -100123 and message 42 give `https://t.me/c/123/42`. */
  lemma PrivateChannelExample(id: int, messageId: int)
    requires id == -100123 && messageId == 42
    ensures MediaLink(ChatId(id), messageId, LookupFailed) == Link("https://t.me/c/123/42")
  {
    PrivateIdNumeral(id);
    MessageIdNumeral(messageId);
    assert IsDigitString("123");
    PrivateChannelLink(id, "123", messageId, LookupFailed);
    ExampleUrl(LinkBase + "c/" + "123" + "/" + "42");
  }

  lemma ExampleUrl(url: string)
    requires url == LinkBase + "c/" + "123" + "/" + "42"
    ensures url == "https://t.me/c/123/42"
  {
  }

  /** Two results of the same channel with different message ids never share a link. */
  lemma LinksDistinguishMessages(channel: ChannelRef, m1: int, m2: int, lookup: ChatLookup)
    requires MediaLink(channel, m1, lookup).Link?
    requires m1 != m2
    ensures MediaLink(channel, m1, lookup) != MediaLink(channel, m2, lookup)
  {
    var pre := LinkBase + LinkPath(channel, lookup) + "/";
    var a := IntToString(m1);
    var b := IntToString(m2);
    if MediaLink(channel, m1, lookup) == MediaLink(channel, m2, lookup) {
      assert pre + a == pre + b;
      assert a == (pre + a)[|pre|..];
      assert b == (pre + b)[|pre|..];
      IntToStringInjective(m1, m2);
    }
  }
}

=== FILE: MediaStore.dfy ===
/**
 * The database (database.py) as three maps: media records keyed by
 * (channel_id, message_id), per-channel checkpoints, and users keyed by user id.
 * Each operation is a function from the store before to the store after.
 */
module MediaStore {
  import opened Wrappers
  import opened Normalizer

  /** `file_type`: the media kinds the scanner stores. */
  datatype FileType = VideoFile | DocumentFile | AudioFile

  /** The unique index on `(channel_id, message_id)`. */
  datatype MediaKey = MediaKey(channelId: int, messageId: int)

  /** The fields `add_media` is given besides the key. */
  datatype MediaFields = MediaFields(
    fileId: string,
    fileName: Option<string>,
    caption: Option<string>,
    fileType: FileType,
    fileSize: int)

  datatype MediaRecord = MediaRecord(
    channelId: int,
    messageId: int,
    fields: MediaFields,
    searchTags: string,
    indexedAt: int)
  {
    function Key(): MediaKey {
      MediaKey(channelId, messageId)
    }
  }

  datatype UserRecord = UserRecord(
    userId: int,
    firstName: Option<string>,
    username: Option<string>,
    joinDate: Option<int>,
    banned: bool)

  datatype Store = Store(
    media: map<MediaKey, MediaRecord>,
    checkpoints: map<int, int>,
    users: map<int, UserRecord>)

  const EmptyStore: Store := Store(map[], map[], map[])

  /**
   * Every record sits under its own key and carries the tags of its own name
   * and caption; every user sits under its own id.
   */
  ghost predicate Consistent(s: Store) {
    && (forall k :: k in s.media ==> s.media[k].Key() == k)
    && (forall k :: k in s.media ==>
          s.media[k].searchTags == SearchTags(s.media[k].fields.fileName, s.media[k].fields.caption))
    && (forall u :: u in s.users ==> s.users[u].userId == u)
  }

  // ---------------------------------------------------------------------------
  // Media
  // ---------------------------------------------------------------------------

  /**
   * `add_media`: an upsert keyed on (channel_id, message_id) that sets every
   * field, the derived `search_tags` and the `indexed_at` timestamp `now`.
   */
  function AddMedia(s: Store, channelId: int, messageId: int, f: MediaFields, now: int): (r: Store)
    ensures r.media.Keys == s.media.Keys + {MediaKey(channelId, messageId)}
    ensures var rec := r.media[MediaKey(channelId, messageId)];
            && rec.Key() == MediaKey(channelId, messageId)
            && rec.fields == f
            && rec.searchTags == SearchTags(f.fileName, f.caption)
            && rec.indexedAt == now
    ensures forall k :: k in s.media && k != MediaKey(channelId, messageId) ==> r.media[k] == s.media[k]
    ensures r.checkpoints == s.checkpoints && r.users == s.users
  {
    var rec := MediaRecord(channelId, messageId, f, SearchTags(f.fileName, f.caption), now);
    s.(media := s.media[MediaKey(channelId, messageId) := rec])
  }

  /** `add_media` keeps the store consistent: the new record sits under its key with its own tags. */
  lemma AddMediaConsistent(s: Store, channelId: int, messageId: int, f: MediaFields, now: int)
    ensures Consistent(s) ==> Consistent(AddMedia(s, channelId, messageId, f, now))
  {
  }

  /** Two stores that differ at most in the records' `indexed_at` timestamps. */
  ghost predicate SameButTimestamps(a: Store, b: Store) {
    && a.media.Keys == b.media.Keys
    && (forall k :: k in a.media ==> a.media[k].(indexedAt := 0) == b.media[k].(indexedAt := 0))
    && a.checkpoints == b.checkpoints
    && a.users == b.users
  }

  /** Upserting a key twice leaves what the second upsert wrote. */
  lemma AddMediaOverwrites(s: Store, channelId: int, messageId: int, f1: MediaFields, f2: MediaFields, t1: int, t2: int)
    ensures AddMedia(AddMedia(s, channelId, messageId, f1, t1), channelId, messageId, f2, t2)
            == AddMedia(s, channelId, messageId, f2, t2)
  {
    var k := MediaKey(channelId, messageId);
    var r1 := MediaRecord(channelId, messageId, f1, SearchTags(f1.fileName, f1.caption), t1);
    var r2 := MediaRecord(channelId, messageId, f2, SearchTags(f2.fileName, f2.caption), t2);
    assert s.media[k := r1][k := r2] == s.media[k := r2];
  }

  /** Repeating `add_media` with the same arguments changes nothing but the timestamp. */
  lemma AddMediaIdempotent(s: Store, channelId: int, messageId: int, f: MediaFields, t1: int, t2: int)
    ensures SameButTimestamps(AddMedia(AddMedia(s, channelId, messageId, f, t1), channelId, messageId, f, t2),
                              AddMedia(s, channelId, messageId, f, t1))
  {
    var k := MediaKey(channelId, messageId);
    var once := AddMedia(s, channelId, messageId, f, t1);
    var twice := AddMedia(once, channelId, messageId, f, t2);
    assert twice.media[k].(indexedAt := 0) == once.media[k].(indexedAt := 0);
  }

  /** Re-indexing a message replaces its record: one record for the key, holding the latest fields. */
  lemma AddMediaLatestWins(s: Store, channelId: int, messageId: int, f1: MediaFields, f2: MediaFields, t1: int, t2: int)
    ensures var r := AddMedia(AddMedia(s, channelId, messageId, f1, t1), channelId, messageId, f2, t2);
            && |r.media| == |AddMedia(s, channelId, messageId, f1, t1).media|
            && r.media[MediaKey(channelId, messageId)].fields == f2
  {
  }

  /** The number of records whose `channel_id` is `c`. */
  function CountInChannel(media: map<MediaKey, MediaRecord>, c: int): nat {
    |set k | k in media && media[k].channelId == c|
  }

  /** The records whose `channel_id` is not `c`. */
  function KeptMedia(media: map<MediaKey, MediaRecord>, c: int): (r: map<MediaKey, MediaRecord>)
    ensures forall k :: k in r <==> k in media && media[k].channelId != c
    ensures forall k :: k in r ==> r[k] == media[k]
  {
    map k | k in media && media[k].channelId != c :: media[k]
  }

  /** Every record is either kept or counted as one of channel `c`'s. */
  lemma KeptMediaCount(media: map<MediaKey, MediaRecord>, c: int)
    ensures |KeptMedia(media, c)| + CountInChannel(media, c) == |media|
  {
    var kept := KeptMedia(media, c);
    var removed := set k | k in media && media[k].channelId == c;
    assert media.Keys == kept.Keys + removed;
    assert kept.Keys !! removed;
    assert |media.Keys| == |kept.Keys| + |removed|;
  }

  /**
   * `delete_media_by_channel`: removes every record whose `channel_id` is `c`
   * and the checkpoint of `c`, and returns the number of records removed.
   */
  function DeleteMediaByChannel(s: Store, c: int): (r: (Store, nat))
    ensures forall k :: k in r.0.media <==> k in s.media && s.media[k].channelId != c
    ensures forall k :: k in r.0.media ==> r.0.media[k] == s.media[k]
    ensures r.1 + |r.0.media| == |s.media|
    ensures r.1 == CountInChannel(s.media, c)
    ensures r.0.checkpoints.Keys == s.checkpoints.Keys - {c}
    ensures forall c' :: c' in r.0.checkpoints ==> r.0.checkpoints[c'] == s.checkpoints[c']
    ensures r.0.users == s.users
    ensures Consistent(s) ==> Consistent(r.0)
  {
    KeptMediaCount(s.media, c);
    (s.(media := KeptMedia(s.media, c), checkpoints := s.checkpoints - {c}), CountInChannel(s.media, c))
  }

  /** Keeping the records outside channel `c` a second time keeps them all. */
  lemma KeptMediaTwice(media: map<MediaKey, MediaRecord>, c: int)
    ensures KeptMedia(KeptMedia(media, c), c) == KeptMedia(media, c)
    ensures CountInChannel(KeptMedia(media, c), c) == 0
  {
    var once := KeptMedia(media, c);
    assert KeptMedia(once, c) == once;
    KeptMediaCount(once, c);
  }

  /** Deleting a channel's records a second time finds none and changes nothing. */
  lemma DeleteMediaByChannelTwice(s: Store, c: int)
    ensures var once := DeleteMediaByChannel(s, c).0;
            DeleteMediaByChannel(once, c) == (once, 0)
  {
    KeptMediaTwice(s.media, c);
    assert s.checkpoints - {c} - {c} == s.checkpoints - {c};
  }

  // ---------------------------------------------------------------------------
  // Checkpoints
  // ---------------------------------------------------------------------------

  /** `get_last_indexed_message_id`: the stored message id, 0 when none is stored. */
  function GetLastIndexedMessageId(s: Store, c: int): int {
    if c in s.checkpoints then s.checkpoints[c] else 0
  }

  /** `set_last_indexed_message_id`: an upsert of channel `c`'s checkpoint. */
  function SetLastIndexedMessageId(s: Store, c: int, m: int): (r: Store)
    ensures r.media == s.media && r.users == s.users
    ensures r.checkpoints.Keys == s.checkpoints.Keys + {c}
  {
    s.(checkpoints := s.checkpoints[c := m])
  }

  /**
   * Checkpoints round-trip: a channel reads back the last id set for it, other
   * channels keep theirs, a channel never set (or cleared) reads 0.
   */
  lemma CheckpointRoundTrip(s: Store, c: int, m: int, c': int)
    ensures GetLastIndexedMessageId(SetLastIndexedMessageId(s, c, m), c) == m
    ensures c' != c ==> GetLastIndexedMessageId(SetLastIndexedMessageId(s, c, m), c') == GetLastIndexedMessageId(s, c')
    ensures GetLastIndexedMessageId(EmptyStore, c) == 0
    ensures GetLastIndexedMessageId(DeleteMediaByChannel(s, c).0, c) == 0
    ensures c' != c ==> GetLastIndexedMessageId(DeleteMediaByChannel(s, c).0, c') == GetLastIndexedMessageId(s, c')
  {
  }

  // ---------------------------------------------------------------------------
  // Users
  // ---------------------------------------------------------------------------

  /**
   * `add_user`: an upsert that sets every field, including `join_date := now`
   * and `banned := False`; a banned user passing through it is no longer banned.
   */
  function AddUser(s: Store, userId: int, firstName: string, username: Option<string>, now: int): (r: Store)
    ensures r.users.Keys == s.users.Keys + {userId}
    ensures r.users[userId] == UserRecord(userId, Some(firstName), username, Some(now), false)
    ensures forall u :: u in s.users && u != userId ==> r.users[u] == s.users[u]
    ensures r.media == s.media && r.checkpoints == s.checkpoints
  {
    s.(users := s.users[userId := UserRecord(userId, Some(firstName), username, Some(now), false)])
  }

  /** `is_user_banned`: the stored `banned` flag; false for an unknown user. */
  function IsUserBanned(s: Store, userId: int): bool {
    userId in s.users && s.users[userId].banned
  }

  /**
   * `set_ban_status` with the evident intent of database.py:42-45: set
   * `banned`, and give a user unknown until now a `join_date`.
   */
  function SetBanStatus(s: Store, userId: int, status: bool, now: int): (r: Store)
    ensures r.users.Keys == s.users.Keys + {userId}
    ensures r.users[userId].banned == status
    ensures userId in s.users ==> r.users[userId] == s.users[userId].(banned := status)
    ensures userId !in s.users ==> r.users[userId] == UserRecord(userId, None, None, Some(now), status)
    ensures forall u :: u in s.users && u != userId ==> r.users[u] == s.users[u]
    ensures r.media == s.media && r.checkpoints == s.checkpoints
  {
    if userId in s.users then s.(users := s.users[userId := s.users[userId].(banned := status)])
    else s.(users := s.users[userId := UserRecord(userId, None, None, Some(now), status)])
  }

  /**
   * Ban status round-trips: `is_user_banned` reports the last status set,
   * other users are unaffected, unknown users are not banned, and `add_user`
   * clears a ban.
   */
  lemma BanStatusRoundTrip(s: Store, u: int, status: bool, now: int, v: int, firstName: string, username: Option<string>)
    ensures IsUserBanned(SetBanStatus(s, u, status, now), u) == status
    ensures v != u ==> IsUserBanned(SetBanStatus(s, u, status, now), v) == IsUserBanned(s, v)
    ensures !IsUserBanned(EmptyStore, u)
    ensures !IsUserBanned(AddUser(s, u, firstName, username, now), u)
    ensures v != u ==> IsUserBanned(AddUser(s, u, firstName, username, now), v) == IsUserBanned(s, v)
  {
  }

  /** Every known user has a `join_date`. */
  ghost predicate UsersDated(s: Store) {
    forall u :: u in s.users ==> s.users[u].joinDate.Some?
  }

  /** Both user-writing operations keep every known user dated. */
  lemma UsersStayDated(s: Store, u: int, status: bool, now: int, firstName: string, username: Option<string>)
    requires UsersDated(s)
    ensures UsersDated(SetBanStatus(s, u, status, now))
    ensures UsersDated(AddUser(s, u, firstName, username, now))
  {
  }

  // ---------------------------------------------------------------------------
  // set_ban_status as written
  // ---------------------------------------------------------------------------

  /** `update_one({'user_id': u}, {'$set': {'banned': status}}, upsert=True)`. */
  function UpsertSetBanned(users: map<int, UserRecord>, u: int, status: bool): map<int, UserRecord> {
    if u in users then users[u := users[u].(banned := status)]
    else users[u := UserRecord(u, None, None, None, status)]
  }

  /**
   * `update_one({'user_id': u}, {'$setOnInsert': {'join_date': now}}, upsert=True)`:
   * `$setOnInsert` only writes when the update inserts a new document.
   */
  function UpsertSetOnInsertJoinDate(users: map<int, UserRecord>, u: int, now: int): map<int, UserRecord> {
    if u in users then users
    else users[u := UserRecord(u, None, None, Some(now), false)]
  }

  /** `set_ban_status` as written: the two updates in sequence. */
  function SetBanStatusAsWritten(s: Store, userId: int, status: bool, now: int): (r: Store)
    ensures r.users.Keys == s.users.Keys + {userId}
    ensures r.users[userId].banned == status
  {
    s.(users := UpsertSetOnInsertJoinDate(UpsertSetBanned(s.users, userId, status), userId, now))
  }

  /**
   * The two versions differ only in the join date of a user unknown until
   * now: the ban flags, and so every answer of `is_user_banned`, agree.
   */
  lemma SetBanStatusVersionsAgree(s: Store, userId: int, status: bool, now: int, v: int)
    ensures userId in s.users ==> SetBanStatusAsWritten(s, userId, status, now) == SetBanStatus(s, userId, status, now)
    ensures var corrected := SetBanStatus(s, userId, status, now);
            userId !in s.users ==>
              SetBanStatusAsWritten(s, userId, status, now)
              == corrected.(users := corrected.users[userId := corrected.users[userId].(joinDate := None)])
    ensures IsUserBanned(SetBanStatusAsWritten(s, userId, status, now), v) == IsUserBanned(SetBanStatus(s, userId, status, now), v)
  {
  }

  /**
   * The first upsert has already inserted the user, so the second never
   * inserts and `join_date` is never written for a user unknown until now.
   */
  lemma SetBanStatusAsWrittenLeavesNoJoinDate(s: Store, userId: int, status: bool, now: int)
    requires userId !in s.users
    ensures SetBanStatusAsWritten(s, userId, status, now).users[userId].joinDate == None
    ensures !UsersDated(SetBanStatusAsWritten(s, userId, status, now))
    ensures SetBanStatus(s, userId, status, now).users[userId].joinDate == Some(now)
  {
  }
}

=== FILE: Normalizer.dfy ===
/**
 * The token normaliser (database.py): lowercase the text, keep the maximal
 * runs of word characters and join them with single spaces. The same function
 * builds a record's `search_tags` and cleans an incoming query.
 */
module Normalizer {
  import opened Wrappers
  import opened Text

  /** `re.findall(r'\w+', text.lower())`. */
  function Tokens(text: string): (ts: seq<string>)
    ensures ValidTokens(ts, IsWordChar)
    ensures forall i :: 0 <= i < |ts| ==> All(ts[i], IsLowerFixed)
  {
    var lowered := LowerStr(text);
    RunsAll(lowered, IsWordChar, IsLowerFixed);
    Runs(lowered, IsWordChar)
  }

  /**
   * The shape of a normalised string: lowercase word characters in runs
   * separated by single spaces, with no space at either end.
   */
  predicate IsNormalized(t: string) {
    Separated(t, ' ', IsWordChar) && All(t, IsLowerFixed)
  }

  /** `' '.join(re.findall(r'\w+', text.lower()))`. */
  function Normalize(text: string): (r: string)
    ensures IsNormalized(r)
    ensures |r| == 0 <==> forall i :: 0 <= i < |text| ==> !IsWordChar(text[i])
  {
    var ts := Tokens(text);
    JoinSeparated(ts, ' ', IsWordChar);
    JoinAll(ts, ' ', IsLowerFixed);
    RunsEmpty(LowerStr(text), IsWordChar);
    Join(ts, ' ')
  }

  /** A text and the same text with some letters in the other case normalise alike. */
  lemma NormalizeIgnoresCase(a: string, b: string)
    requires |a| == |b| && forall i :: 0 <= i < |a| ==> SameIgnoringCase(a[i], b[i])
    ensures Normalize(a) == Normalize(b)
  {
    forall i | 0 <= i < |a|
      ensures LowerStr(a)[i] == LowerStr(b)[i]
    {
      LowerIgnoresCase(a[i], b[i]);
    }
    assert LowerStr(a) == LowerStr(b);
  }

  /** Splitting a normalised string on its spaces recovers exactly the tokens of the original text. */
  lemma NormalizeKeepsTokens(text: string)
    ensures Runs(Normalize(text), IsWordChar) == Tokens(text)
  {
    RunsOfJoin(Tokens(text), ' ', IsWordChar);
  }

  /** A string already in normal form is its own normalisation. */
  lemma NormalizeFixesNormalized(t: string)
    requires IsNormalized(t)
    ensures Normalize(t) == t
  {
    assert LowerStr(t) == t;
    JoinOfRuns(t, ' ', IsWordChar);
  }

  /** Normalising twice is normalising once. */
  lemma NormalizeIdempotent(text: string)
    ensures Normalize(Normalize(text)) == Normalize(text)
  {
    NormalizeFixesNormalized(Normalize(text));
  }

  /** The `search_tags` stored with a record: the normalised `(file_name or "") + " " + (caption or "")`. */
  function SearchTags(fileName: Option<string>, caption: Option<string>): (r: string)
    ensures IsNormalized(r)
  {
    Normalize(fileName.OrElse("") + " " + caption.OrElse(""))
  }

  /**
   * The tokens of the stored tags are the file name's tokens followed by the
   * caption's: the separating space keeps a name token and a caption token from merging.
   */
  lemma SearchTagsTokens(fileName: Option<string>, caption: Option<string>)
    ensures Runs(SearchTags(fileName, caption), IsWordChar)
            == Tokens(fileName.OrElse("")) + Tokens(caption.OrElse(""))
  {
    var a := fileName.OrElse("");
    var b := caption.OrElse("");
    NormalizeKeepsTokens(a + " " + b);
    LowerStrConcat(a + " ", b);
    LowerStrConcat(a, " ");
    assert LowerStr(" ") == " ";
    RunsSplitAt(LowerStr(a), ' ', LowerStr(b), IsWordChar);
  }

  lemma MatrixFileNameLowered(name: string)
    requires name == "The.Matrix_1999.mkv"
    ensures LowerStr(name) == "the.matrix_1999.mkv"
  {
    LowerStrConcat("The.", "Matrix_1999.mkv");
    LowerStrConcat("Matrix_1999", ".mkv");
    assert LowerStr("The.") == "the.";
    assert LowerStr("Matrix_1999") == "matrix_1999";
    assert LowerStr(".mkv") == ".mkv";
  }

  /**
   * `_` is a word character, so a file name's `_`-joined parts stay one token:
   * "The.Matrix_1999.mkv" has the tokens "the", "matrix_1999" and "mkv" and
   * normalises to "the matrix_1999 mkv".
   */
  lemma MatrixFileName(name: string)
    requires name == "The.Matrix_1999.mkv"
    ensures Tokens(name) == ["the", "matrix_1999", "mkv"]
    ensures Normalize(name) == "the matrix_1999 mkv"
  {
    var ts := ["the", "matrix_1999", "mkv"];
    MatrixFileNameLowered(name);
    JoinThree("the", "matrix_1999", "mkv", '.');
    MatrixDotted("the" + ['.'] + "matrix_1999" + ['.'] + "mkv");
    MatrixTokensValid(ts);
    RunsOfJoin(ts, '.', IsWordChar);
    JoinThree("the", "matrix_1999", "mkv", ' ');
    MatrixSpaced("the" + [' '] + "matrix_1999" + [' '] + "mkv");
  }

  lemma MatrixTokensValid(ts: seq<string>)
    requires ts == ["the", "matrix_1999", "mkv"]
    ensures ValidTokens(ts, IsWordChar)
  {
    assert All(ts[0], IsWordChar);
    assert All(ts[1], IsWordChar);
    assert All(ts[2], IsWordChar);
  }

  lemma MatrixDotted(t: string)
    requires t == "the" + ['.'] + "matrix_1999" + ['.'] + "mkv"
    ensures t == "the.matrix_1999.mkv"
  {
  }

  lemma MatrixSpaced(t: string)
    requires t == "the" + [' '] + "matrix_1999" + [' '] + "mkv"
    ensures t == "the matrix_1999 mkv"
  {
  }

  lemma MatrixQueryLowered(query: string)
    requires query == "MATRIX 1999"
    ensures LowerStr(query) == "matrix 1999"
  {
    LowerStrConcat("MATRIX", " 1999");
    assert LowerStr("MATRIX") == "matrix";
    assert LowerStr(" 1999") == " 1999";
  }

  /** The query "MATRIX 1999" has a token "1999", which the file name above lacks. */
  lemma MatrixQuery(name: string, query: string)
    requires name == "The.Matrix_1999.mkv" && query == "MATRIX 1999"
    ensures Tokens(query) == ["matrix", "1999"]
    ensures "1999" in Tokens(query) && "1999" !in Tokens(name)
  {
    var ts := ["matrix", "1999"];
    MatrixQueryLowered(query);
    JoinTwo("matrix", "1999", ' ');
    QuerySpaced("matrix" + [' '] + "1999");
    assert ValidTokens(ts, IsWordChar) by {
      assert All(ts[0], IsWordChar);
      assert All(ts[1], IsWordChar);
    }
    RunsOfJoin(ts, ' ', IsWordChar);
    MatrixFileName(name);
    var fs := ["the", "matrix_1999", "mkv"];
    assert forall i :: 0 <= i < |fs| ==> |fs[i]| != |"1999"|;
  }

  lemma QuerySpaced(t: string)
    requires t == "matrix" + [' '] + "1999"
    ensures t == "matrix 1999"
  {
  }
}

=== FILE: Numerals.dfy ===
/**
 * Decimal numerals: `str(n)` for integers, `str.isdigit()` and `int(s)` on
 * the strings the bot converts (ASCII digits, with Python's `_` digit grouping).
 */
module Numerals {
  import opened Wrappers

  predicate IsDigit(c: char) {
    '0' <= c <= '9'
  }

  /** Python's `str.isdigit()` on ASCII: non-empty and every character a digit. */
  predicate IsDigitString(s: string) {
    |s| > 0 && forall i :: 0 <= i < |s| ==> IsDigit(s[i])
  }

  function DigitChar(d: nat): (c: char)
    requires d < 10
    ensures IsDigit(c)
  {
    ('0' as int + d) as char
  }

  function DigitValue(c: char): (d: nat)
    requires IsDigit(c)
    ensures d < 10
    ensures DigitChar(d) == c
  {
    (c as int - '0' as int)
  }

  /** `str(n)` for a non-negative integer: its shortest decimal numeral. */
  function NatToString(n: nat): (s: string)
    ensures IsDigitString(s)
    ensures |s| > 1 ==> s[0] != '0'
    decreases n
  {
    if n < 10 then [DigitChar(n)] else NatToString(n / 10) + [DigitChar(n % 10)]
  }

  /** Appending a digit `d` to the numeral of a positive `n` gives the numeral of `10 * n + d`. */
  lemma NatToStringAppend(n: nat, d: nat)
    requires 0 < n && d < 10
    ensures NatToString(10 * n + d) == NatToString(n) + [DigitChar(d)]
  {
    assert (10 * n + d) / 10 == n && (10 * n + d) % 10 == d;
  }

  /** `str(n)` for any integer. */
  function IntToString(n: int): string {
    if n < 0 then "-" + NatToString(-n) else NatToString(n)
  }

  /** The value of a string of decimal digits, leading zeros allowed (`int(s)` on `s.isdigit()`). */
  function ParseDigits(s: string): nat
    requires forall i :: 0 <= i < |s| ==> IsDigit(s[i])
    decreases |s|
  {
    if |s| == 0 then 0 else 10 * ParseDigits(s[..|s| - 1]) + DigitValue(s[|s| - 1])
  }

  /** Reading back the numeral of `n` gives `n`. */
  lemma {:induction false} ParseNatToString(n: nat)
    ensures ParseDigits(NatToString(n)) == n
    decreases n
  {
    var s := NatToString(n);
    if n >= 10 {
      ParseNatToString(n / 10);
      assert s[..|s| - 1] == NatToString(n / 10);
    }
  }

  lemma {:induction false} ParseDigitsPositive(s: string)
    requires IsDigitString(s) && s[0] != '0'
    ensures ParseDigits(s) > 0
    decreases |s|
  {
    if |s| > 1 {
      ParseDigitsPositive(s[..|s| - 1]);
    }
  }

  /** A numeral without leading zeros is the numeral of its own value. */
  lemma {:induction false} NatToStringOfParse(s: string)
    requires IsDigitString(s)
    requires |s| > 1 ==> s[0] != '0'
    ensures NatToString(ParseDigits(s)) == s
    decreases |s|
  {
    if |s| > 1 {
      var init := s[..|s| - 1];
      NatToStringOfParse(init);
      ParseDigitsPositive(init);
      var n := ParseDigits(s);
      assert n / 10 == ParseDigits(init);
      assert n % 10 == DigitValue(s[|s| - 1]);
      assert init + [s[|s| - 1]] == s;
    }
  }

  /** `str` is injective on integers. */
  lemma IntToStringInjective(a: int, b: int)
    requires IntToString(a) == IntToString(b)
    ensures a == b
  {
    if a < 0 && b < 0 {
      assert NatToString(-a) == IntToString(a)[1..];
      ParseNatToString(-a);
      ParseNatToString(-b);
    } else if a >= 0 && b >= 0 {
      ParseNatToString(a);
      ParseNatToString(b);
    }
  }

  // ---------------------------------------------------------------------------
  // Python's int() on digit strings with `_` grouping
  // ---------------------------------------------------------------------------

  /**
   * The digit part Python's `int()` accepts: digits, where single underscores
   * may stand between two digits (`1_000`), but not at either end and not twice in a row.
   */
  predicate IsGroupedDigits(s: string) {
    && |s| > 0
    && IsDigit(s[0]) && IsDigit(s[|s| - 1])
    && (forall i :: 0 <= i < |s| ==> IsDigit(s[i]) || s[i] == '_')
    && (forall i :: 0 <= i < |s| - 1 && s[i] == '_' ==> s[i + 1] != '_')
  }

  function RemoveUnderscores(s: string): (r: string)
    requires forall i :: 0 <= i < |s| ==> IsDigit(s[i]) || s[i] == '_'
    ensures forall i :: 0 <= i < |r| ==> IsDigit(r[i])
    ensures (exists i :: 0 <= i < |s| && IsDigit(s[i])) ==> |r| > 0
    decreases |s|
  {
    if |s| == 0 then ""
    else if s[0] == '_' then RemoveUnderscores(s[1..])
    else [s[0]] + RemoveUnderscores(s[1..])
  }

  /** `int(s)` for a string with an optional leading `-`; None where Python raises ValueError. */
  function ParsePyInt(s: string): (r: Option<int>)
    ensures r.Some? <==> IsGroupedDigits(if |s| > 0 && s[0] == '-' then s[1..] else s)
    ensures r.Some? && |s| > 0 && s[0] == '-' ==> r.value <= 0
    ensures r.Some? && (|s| == 0 || s[0] != '-') ==> r.value >= 0
  {
    if |s| > 0 && s[0] == '-' then
      if IsGroupedDigits(s[1..]) then Some(0 - ParseDigits(RemoveUnderscores(s[1..]))) else None
    else if IsGroupedDigits(s) then Some(ParseDigits(RemoveUnderscores(s)) as int)
    else None
  }

  /** On a plain digit string (what `str.isdigit()` accepts) `int()` is the digits' value. */
  lemma ParsePyIntOfDigits(s: string)
    requires IsDigitString(s)
    ensures ParsePyInt(s) == Some(ParseDigits(s))
  {
    RemoveUnderscoresOfDigits(s);
  }

  lemma {:induction false} RemoveUnderscoresOfDigits(s: string)
    requires forall i :: 0 <= i < |s| ==> IsDigit(s[i])
    ensures RemoveUnderscores(s) == s
    decreases |s|
  {
    if |s| > 0 {
      RemoveUnderscoresOfDigits(s[1..]);
      assert [s[0]] + s[1..] == s;
    }
  }

  lemma DigitStringIsGrouped(d: string)
    requires IsDigitString(d)
    ensures IsGroupedDigits(d)
    ensures ParseDigits(RemoveUnderscores(d)) == ParseDigits(d)
  {
    RemoveUnderscoresOfDigits(d);
  }

  /** `int(str(n)) == n`: Python's parser reads back every numeral `str` produces. */
  lemma {:induction false} ParsePyIntOfIntToString(n: int)
    ensures ParsePyInt(IntToString(n)) == Some(n)
  {
    var s := IntToString(n);
    if n < 0 {
      var d := NatToString(-n);
      assert s[0] == '-' && s[1..] == d;
      DigitStringIsGrouped(d);
      ParseNatToString(-n);
    } else {
      DigitStringIsGrouped(s);
      ParseNatToString(n);
    }
  }
}

=== FILE: Search.dfy ===
/**
 * `search_media` (database.py): clean the query with the normaliser, return
 * nothing for an empty cleaned query, and otherwise the best `max_results`
 * records of the text index, ordered by relevance and then by newest message.
 *
 * Which records match a cleaned query, and their relevance score, belong to
 * the database's text index; they are parameters here.
 */
module Search {
  import opened Normalizer
  import opened MediaStore
  import Text

  /** Whether the text index matches a record for a cleaned query. */
  type TextMatch = (string, MediaRecord) -> bool

  /** The text index's relevance score of a record for a cleaned query. */
  type TextScore = (string, MediaRecord) -> int

  /**
   * The order `sort([('score', textScore), ('message_id', -1)])`: higher score
   * first, and among equal scores the higher message id first.
   */
  predicate RanksBefore(score: TextScore, q: string, a: MediaRecord, b: MediaRecord) {
    score(q, a) > score(q, b) || (score(q, a) == score(q, b) && a.messageId >= b.messageId)
  }

  predicate Ranked(score: TextScore, q: string, xs: seq<MediaRecord>) {
    forall i, j :: 0 <= i < j < |xs| ==> RanksBefore(score, q, xs[i], xs[j])
  }

  /** No record occurs twice. */
  predicate Distinct(xs: seq<MediaRecord>) {
    forall i, j :: 0 <= i < j < |xs| ==> xs[i] != xs[j]
  }

  /** Every record of the map is stored under its own key, as in a consistent store. */
  ghost predicate KeyedBy(media: map<MediaKey, MediaRecord>) {
    forall k :: k in media ==> media[k].Key() == k
  }

  lemma DistinctCons(y: MediaRecord, t: seq<MediaRecord>)
    requires y !in t && Distinct(t)
    ensures Distinct([y] + t)
  {
    var r := [y] + t;
    forall i, j | 0 <= i < j < |r|
      ensures r[i] != r[j]
    {
      assert r[j] == t[j - 1];
      if i > 0 {
        assert r[i] == t[i - 1];
      }
    }
  }

  lemma DistinctTail(xs: seq<MediaRecord>)
    requires |xs| > 0 && Distinct(xs)
    ensures Distinct(xs[1..]) && xs[0] !in xs[1..]
  {
    forall i, j | 0 <= i < j < |xs[1..]|
      ensures xs[1..][i] != xs[1..][j]
    {
      assert xs[1..][i] == xs[i + 1] && xs[1..][j] == xs[j + 1];
    }
    forall y | y in xs[1..]
      ensures y != xs[0]
    {
      var j :| 0 <= j < |xs[1..]| && xs[1..][j] == y;
      assert xs[j + 1] == y;
    }
  }

  /** Inserts `x` before the first element it ranks before. */
  function Insert(score: TextScore, q: string, x: MediaRecord, xs: seq<MediaRecord>): (r: seq<MediaRecord>)
    ensures multiset(r) == multiset(xs) + multiset{x}
    ensures forall y :: y in r <==> y == x || y in xs
    decreases |xs|
  {
    if |xs| == 0 then [x]
    else if RanksBefore(score, q, x, xs[0]) then [x] + xs
    else
      assert xs == [xs[0]] + xs[1..];
      [xs[0]] + Insert(score, q, x, xs[1..])
  }

  /** Inserting into a ranked list keeps it ranked. */
  lemma {:induction false} InsertRanked(score: TextScore, q: string, x: MediaRecord, xs: seq<MediaRecord>)
    requires Ranked(score, q, xs)
    ensures Ranked(score, q, Insert(score, q, x, xs))
    decreases |xs|
  {
    if |xs| > 0 && !RanksBefore(score, q, x, xs[0]) {
      var tail := Insert(score, q, x, xs[1..]);
      InsertRanked(score, q, x, xs[1..]);
      var r := [xs[0]] + tail;
      forall i, j | 0 <= i < j < |r|
        ensures RanksBefore(score, q, r[i], r[j])
      {
        if i == 0 {
          assert r[j] in tail;
          assert r[j] == x || r[j] in xs[1..];
        } else {
          assert r[i] == tail[i - 1] && r[j] == tail[j - 1];
        }
      }
    }
  }

  /** Inserting a new record into a list without repeats leaves none. */
  lemma {:induction false} InsertDistinct(score: TextScore, q: string, x: MediaRecord, xs: seq<MediaRecord>)
    requires Distinct(xs) && x !in xs
    ensures Distinct(Insert(score, q, x, xs))
    decreases |xs|
  {
    if |xs| == 0 {
    } else if RanksBefore(score, q, x, xs[0]) {
      DistinctCons(x, xs);
    } else {
      assert xs == [xs[0]] + xs[1..];
      DistinctTail(xs);
      InsertDistinct(score, q, x, xs[1..]);
      DistinctCons(xs[0], Insert(score, q, x, xs[1..]));
    }
  }

  /** Orders records by rank (an insertion sort). */
  function Sort(score: TextScore, q: string, xs: seq<MediaRecord>): (r: seq<MediaRecord>)
    ensures multiset(r) == multiset(xs)
    ensures forall y :: y in r <==> y in xs
    decreases |xs|
  {
    if |xs| == 0 then []
    else
      assert xs == [xs[0]] + xs[1..];
      Insert(score, q, xs[0], Sort(score, q, xs[1..]))
  }

  /** The sort's output is ranked. */
  lemma {:induction false} SortRanked(score: TextScore, q: string, xs: seq<MediaRecord>)
    ensures Ranked(score, q, Sort(score, q, xs))
    decreases |xs|
  {
    if |xs| > 0 {
      SortRanked(score, q, xs[1..]);
      InsertRanked(score, q, xs[0], Sort(score, q, xs[1..]));
    }
  }

  /** Sorting a list without repeats leaves none. */
  lemma {:induction false} SortDistinct(score: TextScore, q: string, xs: seq<MediaRecord>)
    ensures Distinct(xs) ==> Distinct(Sort(score, q, xs))
    decreases |xs|
  {
    if |xs| > 0 && Distinct(xs) {
      DistinctTail(xs);
      SortDistinct(score, q, xs[1..]);
      InsertDistinct(score, q, xs[0], Sort(score, q, xs[1..]));
    }
  }

  /** The records of the store that the text index matches for `q`, in no particular order. */
  method CollectMatches(media: map<MediaKey, MediaRecord>, q: string, matches: TextMatch)
    returns (hits: seq<MediaRecord>)
    ensures forall x :: x in hits <==> x in media.Values && matches(q, x)
    ensures KeyedBy(media) ==> Distinct(hits)
  {
    hits := [];
    var rest := media.Keys;
    while rest != {}
      invariant rest <= media.Keys
      invariant forall x :: x in hits ==> x in media.Values && matches(q, x)
      invariant forall k :: k in media && k !in rest && matches(q, media[k]) ==> media[k] in hits
      invariant KeyedBy(media) ==> Distinct(hits) && forall x :: x in hits ==> x.Key() !in rest
      decreases rest
    {
      var k :| k in rest;
      if matches(q, media[k]) {
        hits := hits + [media[k]];
      }
      rest := rest - {k};
    }
  }

  /**
   * `search_media(query, max_results)`. The result is empty when the cleaned
   * query is; otherwise it holds only matching records of the store, ranked,
   * at most `max_results` of them, and a matching record is left out only when
   * the limit is reached by records that rank at least as high.
   */
  method SearchMedia(s: Store, query: string, maxResults: nat, matches: TextMatch, score: TextScore)
    returns (r: seq<MediaRecord>)
    requires maxResults > 0
    ensures Normalize(query) == "" ==> r == []
    ensures |r| <= maxResults
    ensures forall x :: x in r ==> x in s.media.Values && matches(Normalize(query), x)
    ensures Ranked(score, Normalize(query), r)
    ensures Consistent(s) ==> Distinct(r)
    ensures Normalize(query) != "" ==>
              forall x :: x in s.media.Values && matches(Normalize(query), x) && x !in r ==>
                |r| == maxResults && forall y :: y in r ==> RanksBefore(score, Normalize(query), y, x)
  {
    var q := Normalize(query);
    if q == "" {
      return [];
    }
    var hits := CollectMatches(s.media, q, matches);
    var sorted := Sort(score, q, hits);
    SortRanked(score, q, hits);
    SortDistinct(score, q, hits);
    var k := if |sorted| <= maxResults then |sorted| else maxResults;
    r := sorted[..k];
    assert forall j :: 0 <= j < k ==> r[j] == sorted[j];
    forall x | x in s.media.Values && matches(q, x) && x !in r
      ensures |r| == maxResults && forall y :: y in r ==> RanksBefore(score, q, y, x)
    {
      assert x in sorted;
      var i :| 0 <= i < |sorted| && sorted[i] == x;
      assert i >= k;
      forall y | y in r
        ensures RanksBefore(score, q, y, x)
      {
        var j :| 0 <= j < k && r[j] == y;
      }
    }
  }

  /** Queries without a word character clean to "" and so find nothing, whatever the store holds. */
  lemma EmptyQueries()
    ensures Normalize("") == ""
    ensures Normalize("   ") == ""
    ensures Normalize("?! ...") == ""
  {
    var blank := "   ";
    var marks := "?! ...";
    assert forall i :: 0 <= i < |blank| ==> !Text.IsWordChar(blank[i]);
    assert forall i :: 0 <= i < |marks| ==> !Text.IsWordChar(marks[i]);
  }
}

=== FILE: Text.dfy ===
/**
 * Character classes and the two string shapes the bot relies on: maximal runs
 * of characters of one class (`re.findall(r'\w+', ...)` and `str.split()`) and
 * a list of tokens joined by one separator (`' '.join(...)`).
 *
 * Characters are modelled on the ASCII range; every other character is
 * neither a word character nor whitespace and is left alone by `Lower`.
 */
module Text {

  /** `\w` in Python's `re`: letters, digits and the underscore. */
  predicate IsWordChar(c: char) {
    ('a' <= c <= 'z') || ('A' <= c <= 'Z') || ('0' <= c <= '9') || c == '_'
  }

  /** Python's `str.isspace()` on the ASCII range: the characters `str.split()` and `str.strip()` drop. */
  predicate IsSpace(c: char) {
    c == ' ' || c == '\t' || c == '\n' || c == '\r' || c == '\U{0B}' || c == '\U{0C}'
    || ('\U{1C}' <= c <= '\U{1F}')
  }

  predicate IsNotSpace(c: char) {
    !IsSpace(c)
  }

  /** `str.lower()` on one character. */
  function Lower(c: char): (r: char)
    ensures IsWordChar(r) <==> IsWordChar(c)
    ensures !('A' <= r <= 'Z')
    ensures 'A' <= c <= 'Z' ==> r != c && r as int == c as int + 32
    ensures !('A' <= c <= 'Z') ==> r == c
  {
    if 'A' <= c <= 'Z' then (c as int + 32) as char else c
  }

  /** Two characters that are equal, or the same ASCII letter in upper and lower case. */
  predicate SameIgnoringCase(a: char, b: char) {
    || a == b
    || ('A' <= a <= 'Z' && b as int == a as int + 32)
    || ('A' <= b <= 'Z' && a as int == b as int + 32)
  }

  /** Lowering maps characters that differ only in case to the same character, and only those. */
  lemma LowerIgnoresCase(a: char, b: char)
    ensures Lower(a) == Lower(b) <==> SameIgnoringCase(a, b)
  {
  }

  predicate IsLowerFixed(c: char) {
    Lower(c) == c
  }

  /** `str.lower()`: lowercases character by character. */
  function LowerStr(s: string): (r: string)
    ensures |r| == |s|
    ensures forall i :: 0 <= i < |s| ==> r[i] == Lower(s[i])
  {
    seq(|s|, i requires 0 <= i < |s| => Lower(s[i]))
  }

  lemma LowerStrConcat(a: string, b: string)
    ensures LowerStr(a + b) == LowerStr(a) + LowerStr(b)
  {
    assert forall i :: 0 <= i < |a| + |b| ==> LowerStr(a + b)[i] == (LowerStr(a) + LowerStr(b))[i];
  }

  predicate All(s: string, p: char -> bool) {
    forall i :: 0 <= i < |s| ==> p(s[i])
  }

  predicate StartsWith(s: string, prefix: string) {
    |prefix| <= |s| && s[..|prefix|] == prefix
  }

  /** A well-formed token list: every token is non-empty and made only of characters satisfying `p`. */
  predicate ValidTokens(ts: seq<string>, p: char -> bool) {
    forall i :: 0 <= i < |ts| ==> |ts[i]| > 0 && All(ts[i], p)
  }

  // ---------------------------------------------------------------------------
  // Maximal runs
  // ---------------------------------------------------------------------------

  /** Length of the longest prefix of `s` whose characters all satisfy `p`. */
  function RunLength(s: string, p: char -> bool): (n: nat)
    ensures n <= |s|
    ensures forall i :: 0 <= i < n ==> p(s[i])
    ensures n < |s| ==> !p(s[n])
  {
    if |s| == 0 || !p(s[0]) then 0 else 1 + RunLength(s[1..], p)
  }

  /** The maximal runs of characters satisfying `p`, left to right. */
  function Runs(s: string, p: char -> bool): (ts: seq<string>)
    ensures ValidTokens(ts, p)
    decreases |s|
  {
    if |s| == 0 then []
    else if !p(s[0]) then Runs(s[1..], p)
    else
      var n := RunLength(s, p);
      [s[..n]] + Runs(s[n..], p)
  }

  /** `sep.join(ts)`. */
  function Join(ts: seq<string>, sep: char): string {
    if |ts| == 0 then ""
    else if |ts| == 1 then ts[0]
    else ts[0] + [sep] + Join(ts[1..], sep)
  }

  lemma JoinTwo(a: string, b: string, sep: char)
    ensures Join([a, b], sep) == a + [sep] + b
  {
    assert [a, b][1..] == [b];
  }

  lemma JoinThree(a: string, b: string, c: string, sep: char)
    ensures Join([a, b, c], sep) == a + [sep] + b + [sep] + c
  {
    assert [a, b, c][1..] == [b, c];
    JoinTwo(b, c, sep);
  }

  /** A string made of `p`-runs separated by single `sep`s, with no `sep` at either end. */
  predicate Separated(t: string, sep: char, p: char -> bool) {
    && (forall i :: 0 <= i < |t| ==> p(t[i]) || t[i] == sep)
    && (|t| > 0 ==> t[0] != sep && t[|t| - 1] != sep)
    && (forall i :: 0 <= i < |t| - 1 && t[i] == sep ==> t[i + 1] != sep)
  }

  lemma {:induction false} RunLengthOfPrefix(a: string, b: string, p: char -> bool)
    requires All(a, p)
    requires |b| == 0 || !p(b[0])
    ensures RunLength(a + b, p) == |a|
    decreases |a|
  {
    if |a| > 0 {
      assert (a + b)[1..] == a[1..] + b;
      RunLengthOfPrefix(a[1..], b, p);
    } else {
      assert a + b == b;
    }
  }

  lemma RunsOfToken(w: string, p: char -> bool)
    requires |w| > 0 && All(w, p)
    ensures Runs(w, p) == [w]
  {
    RunLengthOfPrefix(w, "", p);
    assert w + "" == w;
    assert w[|w|..] == "";
  }

  /** No run exists exactly when no character satisfies `p`. */
  lemma {:induction false} RunsEmpty(s: string, p: char -> bool)
    ensures Runs(s, p) == [] <==> forall i :: 0 <= i < |s| ==> !p(s[i])
    decreases |s|
  {
    if |s| > 0 && !p(s[0]) {
      RunsEmpty(s[1..], p);
      assert forall i :: 1 <= i < |s| ==> s[i] == s[1..][i - 1];
    }
  }

  /** Splitting a joined list gives the list back: `Join` and `Runs` are inverse on valid token lists. */
  lemma {:induction false} RunsOfJoin(ts: seq<string>, sep: char, p: char -> bool)
    requires ValidTokens(ts, p)
    requires !p(sep)
    ensures Runs(Join(ts, sep), p) == ts
    decreases |ts|
  {
    if |ts| == 1 {
      RunsOfToken(ts[0], p);
    } else if |ts| > 1 {
      var rest := Join(ts[1..], sep);
      var s := ts[0] + [sep] + rest;
      assert s == ts[0] + ([sep] + rest);
      RunLengthOfPrefix(ts[0], [sep] + rest, p);
      assert s[..|ts[0]|] == ts[0];
      assert s[|ts[0]|..] == [sep] + rest;
      assert ([sep] + rest)[1..] == rest;
      RunsOfJoin(ts[1..], sep, p);
      assert [ts[0]] + ts[1..] == ts;
    }
  }

  /** Joining valid tokens with a separator outside the class gives a `Separated` string. */
  lemma {:induction false} JoinSeparated(ts: seq<string>, sep: char, p: char -> bool)
    requires ValidTokens(ts, p)
    requires !p(sep)
    ensures Separated(Join(ts, sep), sep, p)
    ensures |Join(ts, sep)| == 0 <==> |ts| == 0
    decreases |ts|
  {
    if |ts| > 1 {
      JoinSeparated(ts[1..], sep, p);
      var w := ts[0];
      var rest := Join(ts[1..], sep);
      var t := w + [sep] + rest;
      assert |rest| > 0;
      forall i | 0 <= i < |t|
        ensures p(t[i]) || t[i] == sep
      {
        if i > |w| {
          assert t[i] == rest[i - |w| - 1];
        }
      }
      forall i | 0 <= i < |t| - 1 && t[i] == sep
        ensures t[i + 1] != sep
      {
        if i > |w| {
          assert t[i] == rest[i - |w| - 1];
          assert t[i + 1] == rest[i - |w|];
        } else if i == |w| {
          assert t[i + 1] == rest[0];
        }
      }
    }
  }

  /** Every character of a joined list satisfies `q` when the separator and every token do. */
  lemma {:induction false} JoinAll(ts: seq<string>, sep: char, q: char -> bool)
    requires forall i :: 0 <= i < |ts| ==> All(ts[i], q)
    requires q(sep)
    ensures All(Join(ts, sep), q)
    decreases |ts|
  {
    if |ts| > 1 {
      JoinAll(ts[1..], sep, q);
      var t := ts[0] + [sep] + Join(ts[1..], sep);
      forall i | 0 <= i < |t|
        ensures q(t[i])
      {
        if i > |ts[0]| {
          assert t[i] == Join(ts[1..], sep)[i - |ts[0]| - 1];
        }
      }
    }
  }

  /** Every run of a string whose characters all satisfy `q` satisfies `q` too. */
  lemma {:induction false} RunsAll(s: string, p: char -> bool, q: char -> bool)
    requires All(s, q)
    ensures forall i :: 0 <= i < |Runs(s, p)| ==> All(Runs(s, p)[i], q)
    decreases |s|
  {
    if |s| > 0 {
      if !p(s[0]) {
        RunsAll(s[1..], p, q);
      } else {
        var n := RunLength(s, p);
        RunsAll(s[n..], p, q);
      }
    }
  }

  /** A `Separated` string is the join of its own runs. */
  lemma {:induction false} JoinOfRuns(t: string, sep: char, p: char -> bool)
    requires !p(sep)
    requires Separated(t, sep, p)
    ensures Join(Runs(t, p), sep) == t
    decreases |t|
  {
    if |t| > 0 {
      var n := RunLength(t, p);
      assert n > 0;
      if n == |t| {
        assert t[..n] == t;
        assert t[n..] == "";
      } else {
        var rest := t[n + 1..];
        SeparatedTail(t, sep, p, n);
        assert Runs(t[n..], p) == Runs(rest, p) by {
          assert t[n..][1..] == rest;
        }
        assert Runs(t, p) == [t[..n]] + Runs(rest, p);
        JoinOfRuns(rest, sep, p);
        var rs := Runs(rest, p);
        assert |rs| > 0 by {
          RunsEmpty(rest, p);
        }
        JoinCons(t[..n], rs, sep);
      }
    }
  }

  /** After the first run of a separated string come one separator and another separated string. */
  lemma SeparatedTail(t: string, sep: char, p: char -> bool, n: nat)
    requires !p(sep)
    requires Separated(t, sep, p)
    requires n == RunLength(t, p) && 0 < n < |t|
    ensures t[n] == sep
    ensures |t[n + 1..]| > 0 && p(t[n + 1]) && Separated(t[n + 1..], sep, p)
    ensures t == t[..n] + [sep] + t[n + 1..]
  {
    var rest := t[n + 1..];
    assert |rest| > 0 by {
      assert t[|t| - 1] != sep;
    }
    forall i | 0 <= i < |rest|
      ensures p(rest[i]) || rest[i] == sep
    {
      assert rest[i] == t[n + 1 + i];
    }
    assert rest[0] == t[n + 1];
    assert rest[|rest| - 1] == t[|t| - 1];
    forall i | 0 <= i < |rest| - 1 && rest[i] == sep
      ensures rest[i + 1] != sep
    {
      assert rest[i] == t[n + 1 + i];
      assert rest[i + 1] == t[n + 2 + i];
    }
  }

  /** `sep.join` of a list with at least two entries. */
  lemma JoinCons(x: string, rs: seq<string>, sep: char)
    requires |rs| > 0
    ensures Join([x] + rs, sep) == x + [sep] + Join(rs, sep)
  {
    assert ([x] + rs)[1..] == rs;
  }

  /**
   * A character outside the class separates the runs on either side of it:
   * the runs of `a + [c] + b` are the runs of `a` followed by the runs of `b`.
   */
  lemma {:induction false} RunsSplitAt(a: string, c: char, b: string, p: char -> bool)
    requires !p(c)
    ensures Runs(a + [c] + b, p) == Runs(a, p) + Runs(b, p)
    decreases |a|
  {
    var s := a + [c] + b;
    if |a| == 0 {
      assert s == [c] + b;
      assert s[1..] == b;
    } else if !p(a[0]) {
      assert s[1..] == a[1..] + [c] + b;
      RunsSplitAt(a[1..], c, b, p);
    } else {
      var m := RunLength(a, p);
      var w, u := a[..m], a[m..];
      assert a == w + u;
      RunsSplitAt(u, c, b, p);
      RunsSplitAtRun(w, u, c, b, p);
    }
  }

  /** A leading run `w` followed by anything that does not continue it is the first token. */
  lemma RunsCons(w: string, r: string, p: char -> bool)
    requires |w| > 0 && All(w, p)
    requires |r| == 0 || !p(r[0])
    ensures Runs(w + r, p) == [w] + Runs(r, p)
  {
    var t := w + r;
    RunLengthOfPrefix(w, r, p);
    assert t[0] == w[0];
    assert t[..|w|] == w;
    assert t[|w|..] == r;
  }

  /** The step of `RunsSplitAt` for a leading run `w`: it is the first token on both sides. */
  lemma RunsSplitAtRun(w: string, u: string, c: char, b: string, p: char -> bool)
    requires !p(c)
    requires |w| > 0 && All(w, p)
    requires |u| == 0 || !p(u[0])
    requires Runs(u + [c] + b, p) == Runs(u, p) + Runs(b, p)
    ensures Runs(w + u + [c] + b, p) == Runs(w + u, p) + Runs(b, p)
  {
    RunsConsSplit(w, u, c, b, p);
    ConsAssoc(w, Runs(u, p), Runs(b, p));
    RunsCons(w, u, p);
  }

  /** `RunsCons` with the remainder `u + [c] + b`. */
  lemma RunsConsSplit(w: string, u: string, c: char, b: string, p: char -> bool)
    requires !p(c)
    requires |w| > 0 && All(w, p)
    requires |u| == 0 || !p(u[0])
    ensures Runs(w + u + [c] + b, p) == [w] + Runs(u + [c] + b, p)
  {
    var rest := u + [c] + b;
    assert w + u + [c] + b == w + rest;
    assert rest[0] == if |u| > 0 then u[0] else c;
    RunsCons(w, rest, p);
  }

  lemma ConsAssoc(w: string, x: seq<string>, y: seq<string>)
    ensures [w] + (x + y) == ([w] + x) + y
  {
  }

  // ---------------------------------------------------------------------------
  // Python string helpers
  // ---------------------------------------------------------------------------

  /** Number of leading whitespace characters. */
  function LeadingSpace(s: string): (n: nat)
    ensures n <= |s|
    ensures forall i :: 0 <= i < n ==> IsSpace(s[i])
    ensures n < |s| ==> !IsSpace(s[n])
  {
    RunLength(s, IsSpace)
  }

  /** Number of trailing whitespace characters. */
  function TrailingSpace(s: string): (n: nat)
    ensures n <= |s|
    ensures forall i :: |s| - n <= i < |s| ==> IsSpace(s[i])
    ensures n < |s| ==> !IsSpace(s[|s| - 1 - n])
  {
    if |s| == 0 || !IsSpace(s[|s| - 1]) then 0 else 1 + TrailingSpace(s[..|s| - 1])
  }

  /** `str.strip()`: the string with leading and trailing whitespace removed. */
  function Strip(s: string): (r: string)
    ensures |r| > 0 ==> !IsSpace(r[0]) && !IsSpace(r[|r| - 1])
    ensures |r| == 0 <==> forall i :: 0 <= i < |s| ==> IsSpace(s[i])
    ensures LeadingSpace(s) + |r| <= |s|
    ensures r == s[LeadingSpace(s)..LeadingSpace(s) + |r|]
    ensures forall j :: LeadingSpace(s) + |r| <= j < |s| ==> IsSpace(s[j])
  {
    var lead := LeadingSpace(s);
    var rest := s[lead..];
    StripSlice(s, lead, rest, TrailingSpace(rest));
    rest[..|rest| - TrailingSpace(rest)]
  }

  /** What is left between `lead` leading and `t` trailing whitespace characters. */
  lemma StripSlice(s: string, lead: nat, rest: string, t: nat)
    requires lead <= |s| && rest == s[lead..]
    requires forall i :: 0 <= i < lead ==> IsSpace(s[i])
    requires lead < |s| ==> !IsSpace(s[lead])
    requires t <= |rest| && forall i :: |rest| - t <= i < |rest| ==> IsSpace(rest[i])
    requires t < |rest| ==> !IsSpace(rest[|rest| - 1 - t])
    ensures var r := rest[..|rest| - t];
            && (|r| > 0 ==> !IsSpace(r[0]) && !IsSpace(r[|r| - 1]))
            && (|r| == 0 <==> forall i :: 0 <= i < |s| ==> IsSpace(s[i]))
            && lead + |r| <= |s|
            && r == s[lead..lead + |r|]
            && (forall j :: lead + |r| <= j < |s| ==> IsSpace(s[j]))
  {
    var r := rest[..|rest| - t];
    assert forall j :: lead <= j < |s| ==> s[j] == rest[j - lead];
    assert r == s[lead..lead + |r|];
  }

  /**
   * `s.replace(pat, repl)`: every non-overlapping occurrence of `pat`, found
   * left to right, replaced by `repl`. The bot only calls it with a non-empty `pat`.
   */
  function Replace(s: string, pat: string, repl: string): string
    requires |pat| > 0
    decreases |s|
  {
    if |s| < |pat| then s
    else if s[..|pat|] == pat then repl + Replace(s[|pat|..], pat, repl)
    else [s[0]] + Replace(s[1..], pat, repl)
  }

  /** Replacing a pattern whose first character does not occur changes nothing. */
  lemma {:induction false} ReplaceAbsent(s: string, pat: string, repl: string)
    requires |pat| > 0
    requires forall i :: 0 <= i < |s| ==> s[i] != pat[0]
    ensures Replace(s, pat, repl) == s
    decreases |s|
  {
    if |s| >= |pat| {
      assert s[..|pat|][0] == s[0];
      ReplaceAbsent(s[1..], pat, repl);
      assert [s[0]] + s[1..] == s;
    }
  }

  /** A string that starts with `pat` and never again contains its first character loses exactly that prefix. */
  lemma ReplaceLeadingOnly(s: string, pat: string, rest: string)
    requires |pat| > 0
    requires s == pat + rest
    requires forall i :: 0 <= i < |rest| ==> rest[i] != pat[0]
    ensures Replace(s, pat, "") == rest
  {
    assert s[..|pat|] == pat;
    assert s[|pat|..] == rest;
    ReplaceAbsent(rest, pat, "");
  }
}

=== FILE: Wrappers.dfy ===
/** The optional values and error returns of the bot's Python code. */
module Wrappers {

  /** A value that may be Python's `None`. */
  datatype Option<T> = None | Some(value: T) {

    /** Python's `x or default` on an optional that is never an empty string: the value, or `default` for None. */
    function OrElse(default: T): (r: T)
      ensures Some? ==> r == value
      ensures None? ==> r == default
    {
      if Some? then value else default
    }
  }

  /** The outcome of an operation that can fail with an error the caller reports. */
  datatype Result<R, E> = Success(value: R) | Failure(error: E)
}
